=== FILE: README.md ===
# Workout dashboard aggregation, heatmap and sign-in gate in Dafny

A Dafny model of the computational core of `progress-tracker`, a personal
workout dashboard:

- the CSV aggregation endpoint (`app/api/csv-data/route.ts`): choosing the
  date column, reading duration texts such as `"1h 12m"`, grouping workout
  rows by day, turning each day into a summary with its longest valid
  session written back as text, sorting the days newest first, and the
  figures of a target month and of the month before it (average duration,
  sets, running distance, distinct exercises and reps);
- the year-to-date heatmap (`components/workout-heatmap.tsx`): the current
  year's workout dates, the grid of seven-day weeks from 1 January to today,
  the per-cell and per-week workout counts, the weekly goal ring and the
  month labels;
- the authentication gate (`middleware.ts`).

Modules follow the program's structure: `Wrappers` (`Option`, `Result`),
`Text` (digits, decimal numbers, trimming, first token, lower-casing,
substring search, ordinal order), `Numbers` (`Math.round`, `toFixed(2)`,
sums and means), `Calendar` (the month of a date key and the month before a
target month), `Duration` (`parseDuration` and the text written for a
maximum duration), `Grouping` (rows, date column, the grouping reduce and
reference definitions of what each day holds), `Summaries` (per-day
summaries, sorting, count conservation), `MonthStats` (month filters and
averages), `Dashboard` (the whole response), `Heatmap` and `Gate`.

A parsed table is a list of `Row`s: the text cells by column name plus the
numbers the endpoint reads from the `Weight`, `Reps` and `Distance` columns.
The grouping reduce is stated once, generically over a `Reading` of each row
(its day key, exercise name, duration text and validity, volume and running
distance); `Grouping.ReadRow` is the endpoint's reading. Each day is related
to an independent reference definition over the rows filed under it
(`Grouping.RowsOn`): its count, volume, running distance, distinct valid
durations and exercise names.

## Model

| member | source | states |
|---|---|---|
| Text.NatToString | app/api/csv-data/route.ts:151 | the decimal text of a number is non-empty, all digits, has no leading zero unless it is "0", and reads back as the same number |
| Text.Decimal | app/api/csv-data/route.ts:89-90 | the value `parseInt` reads from a run of digits; `Text.DecimalAppend` and the `Text.NatToString` round trip state its meaning |
| Text.DecimalAppend | app/api/csv-data/route.ts:89-90 | digits are read left to right: the value of `a + b` is the value of `a` shifted by the number of digits of `b`, plus the value of `b` |
| Text.Trim | app/api/csv-data/route.ts:99 | the result is a slice of the input with only ECMAScript white space removed at either end, and starts and ends with a non-white-space character |
| Text.FirstToken | app/api/csv-data/route.ts:99 | the first element of `split(' ')` is a prefix of the text without a space, followed by a space or the end of the text |
| Text.ToLower | app/api/csv-data/route.ts:117 | lower-casing keeps the length and maps each character on its own |
| Text.Contains | app/api/csv-data/route.ts:118 | `includes`: the text has the substring at some position; `Text.ContainsLowered` states what lower-casing keeps of it |
| Text.ContainsLowered | app/api/csv-data/route.ts:117-118 | lower-casing keeps every occurrence of an already lower-case word, so a name that includes "running" still includes it after `toLowerCase` |
| Text.LessIrreflexive | app/api/csv-data/route.ts:159 | no date key sorts before itself |
| Text.LessAsymmetric | app/api/csv-data/route.ts:159 | two keys are never each before the other |
| Text.LessTransitive | app/api/csv-data/route.ts:159 | the key order used to sort the days is transitive |
| Text.LessTotal | app/api/csv-data/route.ts:159 | any two distinct keys are ordered one way or the other |
| Numbers.Round | app/api/csv-data/route.ts:157 | `Math.round` gives the integer within half a unit of its argument, halves going up |
| Numbers.RoundCents | app/api/csv-data/route.ts:157 | `toFixed(2)` gives a whole number of cents within half a cent of its argument, non-negative for non-negative input |
| Numbers.MeanBounds | app/api/csv-data/route.ts:170-173 | an average lies between the least and greatest value averaged and is 0 for an empty list |
| Calendar.KeyMonth | app/api/csv-data/route.ts:163-166 | a date key reads as a year of four digits and a month index from 0 to 11, or as no month |
| Calendar.KeyMonthIff | app/api/csv-data/route.ts:163-166 | a key reads as a month exactly when it starts with that month's `YYYY-MM` text followed by the end of the key or a `-`; every other text reads as no month |
| Calendar.DayKeyMonth | app/api/csv-data/route.ts:163-166 | every `YYYY-MM-DD` key written for a month reads back as that month |
| Calendar.PrevMonth | app/api/csv-data/route.ts:176-178 | the previous month is a valid month exactly one month before the target, counting years 0 to 99 as 1900 to 1999 |
| Calendar.PrevMonthWraps | app/api/csv-data/route.ts:176-178 | the month before February to December is in the same year; the month before January is December of the year before |
| Duration.Find | app/api/csv-data/route.ts:86-87 | the match of `(\d+)h` or `(\d+)m` is absent exactly when the pattern occurs nowhere, and otherwise is an occurrence with nothing matching further left |
| Duration.CaptureValue | app/api/csv-data/route.ts:86-90 | the number `parseInt` reads from the leftmost `(\d+)h` or `(\d+)m` capture, 0 when there is none; its values are stated through `Duration.ParseHoursMinutes`, `Duration.ParseMinutesOnly` and `Duration.ParseFormat` |
| Duration.Parse | app/api/csv-data/route.ts:84-92 | a text with neither an hours nor a minutes match reads as 0 minutes |
| Duration.Format | app/api/csv-data/route.ts:149-151 | the text written for a duration is non-empty and ends in the minutes unit |
| Duration.ParseHoursMinutes | app/api/csv-data/route.ts:84-92 | `"{h}h {m}m"` reads as `h * 60 + m` minutes |
| Duration.ParseMinutesOnly | app/api/csv-data/route.ts:84-92 | `"{m}m"` reads as `m` minutes |
| Duration.ParseFormat | app/api/csv-data/route.ts:146-151 | the text written for any number of minutes reads back as that number |
| Grouping.FirstDateHeader | app/api/csv-data/route.ts:68-69 | the position of the first header that is a known date column name, none exactly when no header is one |
| Grouping.DetectDateColumn | app/api/csv-data/route.ts:65-77 | the chosen column is the first known date column name if any, else the first header; the "No columns found" error exactly when there is no such non-empty header, in particular for no headers |
| Grouping.DateKey | app/api/csv-data/route.ts:96-99 | a row's day key is the trimmed date value up to its first space: a space-free prefix of it, followed by a space unless it is the whole trimmed value |
| Grouping.ReadRow | app/api/csv-data/route.ts:96-121 | what the reduce's callback reads from a row: its day key when the date cell is non-empty, exercise name, duration text and validity, weight times reps, and distance for running exercises only; `Dashboard.FiledRowsAreDated`, `Dashboard.VolumeIsWeightTimesReps`, `Dashboard.DistanceFromRunningOnly` and `Dashboard.RecordedDurationsValid` state what it contributes to a day |
| Grouping.NamedRunning | app/api/csv-data/route.ts:116-121 | a row whose exercise name includes "running" as written counts its distance, whatever the case of the name's other letters |
| Grouping.AddRow | app/api/csv-data/route.ts:103-130 | one row adds one to its day's count and records its duration text only when it is non-empty, valid and not yet recorded, so the recorded texts stay free of repeats and are exactly the earlier ones plus that text |
| Grouping.AddRowSummarizes | app/api/csv-data/route.ts:100-130 | adding a row to a day's accumulator keeps it equal to the reference summary of the day's rows |
| Grouping.GroupStep | app/api/csv-data/route.ts:95-133 | the callback leaves the map unchanged for a row without a date; otherwise it adds the row's day if it is new and changes no other day |
| Grouping.GroupBy | app/api/csv-data/route.ts:95-133 | the reduce has exactly one entry per distinct day key and each entry counts, totals and collects exactly the rows filed under its key, durations without repetition |
| Summaries.MaxOf | app/api/csv-data/route.ts:146 | `Math.max` of a non-empty list is one of its elements and no smaller than any |
| Summaries.ToDateGroup | app/api/csv-data/route.ts:141-157 | a day's summary keeps its date and count and rounds volume to a whole number and distance to cents |
| Summaries.SummaryDuration | app/api/csv-data/route.ts:144-156 | a summary has a duration exactly when some recorded duration is positive; it is then the largest recorded one, and its text reads back as it |
| Summaries.InsertDesc | app/api/csv-data/route.ts:159 | inserting a new date into a newest-first list keeps it sorted and adds exactly that summary |
| Summaries.SortDesc | app/api/csv-data/route.ts:159 | sorting summaries with distinct dates yields a newest-first permutation of them |
| Summaries.ConvertAll | app/api/csv-data/route.ts:140-158 | converting the map gives one summary per key, each computed from its own day |
| Summaries.SortedGroups | app/api/csv-data/route.ts:140-159 | the summaries list has one summary per day, newest first, each the summary of its day |
| Summaries.CountsConserved | app/api/csv-data/route.ts:95-159 | the summaries' counts add up to the number of rows filed under some day |
| MonthStats.FilterMonth | app/api/csv-data/route.ts:162-166 | the month's summaries are exactly those whose date falls in the month |
| MonthStats.FilterMonthSorted | app/api/csv-data/route.ts:162-166 | filtering a newest-first list keeps it newest first |
| MonthStats.Reverse | app/api/csv-data/route.ts:167 | reversing puts element `i` at position `n - 1 - i` |
| MonthStats.MonthSessions | app/api/csv-data/route.ts:162-167 | the target month's sessions are the month's summaries, oldest first |
| MonthStats.AverageDuration | app/api/csv-data/route.ts:168-172 | the month's duration average is the total minutes of the days with a positive duration over their number, rounded, and 0 when there are none; it is never negative and is 0 exactly when no day has a positive duration |
| MonthStats.AverageDurationBounds | app/api/csv-data/route.ts:170-173 | the duration average is 0 when no day of the list has a duration, and otherwise a whole number of minutes between 1 and the ceiling |
| MonthStats.AverageDurationIgnoresDaysWithout | app/api/csv-data/route.ts:168-172 | a day without a positive duration, wherever it stands in the list, does not change the duration average |
| MonthStats.AverageSets | app/api/csv-data/route.ts:189-193 | the sets average is the days' total count over the number of days, 0 for no days |
| MonthStats.AverageSetsBounds | app/api/csv-data/route.ts:191-200 | the sets average is 0 for no days and otherwise lies between the smallest and largest day count |
| MonthStats.AverageDistanceIgnoresRestDays | app/api/csv-data/route.ts:201-206 | a day without a positive distance, wherever it stands in the list, does not change the distance average |
| MonthStats.AverageDistance | app/api/csv-data/route.ts:201-206 | the distance average is the total distance of the days with a positive distance over their number, 0 when there are none; so it is never negative and is positive exactly when some day has a positive distance |
| MonthStats.MonthRowsMembers | app/api/csv-data/route.ts:271-278 | the month's rows are exactly the dated rows whose day falls in the month |
| MonthStats.AverageReps | app/api/csv-data/route.ts:270-282 | the reps average is the total reps of the month's rows over their number, 0 for a month without rows; `MonthStats.AverageRepsBounds` places it within the rows' range |
| MonthStats.AverageRepsBounds | app/api/csv-data/route.ts:271-282 | the reps average is 0 for a month without rows and otherwise lies within the range of the rows' reps |
| MonthStats.MonthRowsAreMonthSets | app/api/csv-data/route.ts:190-192 | the reps average is taken over as many rows as the month's day summaries count sets |
| MonthStats.PairsOfAll | app/api/csv-data/route.ts:217-236 | the per-day exercise sets together hold exactly the distinct (day, exercise name) pairs of the rows |
| MonthStats.ExerciseTotal | app/api/csv-data/route.ts:238-241 | the sum of the per-day set sizes is the number of distinct (day, exercise) pairs |
| MonthStats.AverageExercises | app/api/csv-data/route.ts:216-241 | the exercises average is the number of distinct (day, exercise) pairs of the month over its number of days, 0 for a month without days |
| Dashboard.FiledRowsAreDated | app/api/csv-data/route.ts:96-97 | the rows filed under a day are exactly the rows with a non-empty date cell |
| Dashboard.DistanceFromRunningOnly | app/api/csv-data/route.ts:116-121 | a day's distance is the total distance of its running rows |
| Dashboard.VolumeIsWeightTimesReps | app/api/csv-data/route.ts:105-108 | a day's volume is the sum of weight times reps over its rows |
| Dashboard.RecordedDurationsValid | app/api/csv-data/route.ts:123-130 | every duration text recorded for a day reads as a positive number of minutes within the ceiling |
| Dashboard.DurationWithinCeiling | app/api/csv-data/route.ts:144-155 | a day's summary has a duration exactly when it recorded one, and its value is positive and within the ceiling |
| Dashboard.DayDuration | app/api/csv-data/route.ts:123-155 | a day whose recorded durations are exactly its valid duration texts has a duration exactly when there is one; it is then the greatest number of minutes any of them reads as, written as text that reads back as it |
| Dashboard.GroupedData | app/api/csv-data/route.ts:95-159 | the summaries list is newest first with one summary per day key; each counts its rows, rounds their weight-times-reps volume and running distance, and carries the longest valid duration of its rows (absent when they have none), within the ceiling and written as text that reads back as it; the counts add up to the dated rows |
| Dashboard.Figures | app/api/csv-data/route.ts:168-292 | a month's figures are its duration, sets, distance and reps averages, and its exercises average is distinct day-exercise pairs over days |
| Dashboard.Aggregate | app/api/csv-data/route.ts:65-321 | the response is the 400 error exactly when no date column can be chosen; otherwise it echoes the column and the row count, lists the days newest first, each with its rows' count, rounded volume and running distance and their longest valid duration, with counts adding up to the dated rows, the target month's sessions oldest first, an overall duration average within the ceiling, both months' figures and the two goals |
| Heatmap.YearDates | components/workout-heatmap.tsx:15-21 | the kept dates are exactly the workout dates in the current year |
| Heatmap.WorkoutSet | components/workout-heatmap.tsx:23 | the lookup set holds exactly the current year's workout dates |
| Heatmap.BuildWeeks | components/workout-heatmap.tsx:27-66 | every week has seven cells; read week after week the grid is the leading placeholders, every day from 1 January to today in order, then the placeholders closing the last week; there are ceil((pad + days) / 7) weeks |
| Heatmap.GridDays | components/workout-heatmap.tsx:45-55 | the grid's non-placeholder cells are the calendar's days, each once and in order |
| Heatmap.FirstWeek | components/workout-heatmap.tsx:39-47 | the first week opens with as many placeholders as 1 January's weekday, then 1 January |
| Heatmap.SlotCount | components/workout-heatmap.tsx:68-72 | a cell counts 1 exactly when it is a day whose date is a workout date, else 0 |
| Heatmap.WorkoutSlots | components/workout-heatmap.tsx:74-80 | a week's workout cells are exactly its days whose date is a workout date |
| Heatmap.WeekCount | components/workout-heatmap.tsx:74-80 | a week's workout count is at most its number of cells, and 0 exactly when none of its cells is a workout day |
| Heatmap.MeetsGoal | components/workout-heatmap.tsx:150-151 | a week meets the goal when its count reaches it; `Heatmap.GoalBounds` states when that is always or never so |
| Heatmap.WeekCountIsCellSum | components/workout-heatmap.tsx:68-80 | a week's workout count is the sum of its cells' counts |
| Heatmap.GoalBounds | components/workout-heatmap.tsx:150-151 | a week counts at most 7 workouts; a goal of at most 0 is always met and one above 7 never is |
| Heatmap.GridCountsWorkoutDays | components/workout-heatmap.tsx:27-80 | the weeks' counts add up to the number of calendar days that are workout dates |
| Heatmap.FirstDay | components/workout-heatmap.tsx:96 | a week's first valid date is absent exactly when the week is all placeholders, and otherwise has only placeholders before it |
| Heatmap.MonthNamesDistinct | components/workout-heatmap.tsx:88 | different months have different short names |
| Heatmap.MonthLabels | components/workout-heatmap.tsx:91-107 | labels are in week order, each names its week's month, two labels in a row never name the same month, the first label precedes every week with a day, and the latest label at or before such a week names its month |
| Gate.Decide | middleware.ts:4-22 | a request passes exactly when its path starts with `/auth` or `/api/auth` or it carries a session; otherwise it is redirected to `/auth/signin` with its path as the callback |
| Gate.RedirectTargetPasses | middleware.ts:6-18 | the sign-in page a request is redirected to is itself let through, so redirects do not loop |

## Left out

- Reading the file named by `CSV_FILE_PATH`, the missing-setting, missing-file, CSV-error and internal-error responses, and CSV parsing itself: the model starts from the parsed header list and rows.
- The `year` and `month` query parameters and the current date: the target month is an input (`Dashboard.Settings.target`).
- `MAX_SESSION_DURATION_HOURS`, `WEEKLY_WORKOUT_GOAL` and `VOLUME_INCREASE_GOAL` are inputs; the ceiling is a whole number of minutes, which for whole-minute durations decides the same as the fractional ceiling; unparseable settings (`NaN`) are not modelled.
- `parseFloat(...) || 0` of the Weight, Reps and Distance cells: rows carry the numbers already read.
- Floating-point arithmetic: sums and averages are exact reals; `Math.round` and `toFixed(2)` are modelled on exact values, not on their binary approximations.
- `parseInt` of digit runs beyond 2^53 loses precision in JavaScript; the model reads any digit run exactly.
- `localeCompare` is replaced by code-point order, which agrees with it on `YYYY-MM-DD` keys.
- `new Date(text)` accepts many formats; the model reads only `YYYY-MM` keys optionally followed by `-...`, and any other text falls in no month or year. Time zones are not modelled: a key denotes its own calendar day.
- Calendar.KeyMonth: does not check the day part of a key, so a key such as `2024-01-99` or `2024-01-xyz` counts as January 2024, whereas `new Date` gives an invalid date for it and the month filters leave that day out of every month.
- Day keys that coincide with names inherited by plain JavaScript objects (such as `constructor`) are treated as ordinary keys.
- The order in which JavaScript lists the grouped days before sorting is not modelled; the sort result does not depend on it because keys are distinct.
- Heatmap calendar arithmetic (`setDate`, `getDay`, `getMonth`, `toISOString`) is an input: the days from 1 January to today with their date text and month, and the weekday of 1 January. Placeholder cells are a separate constructor instead of dates at time 0.
- Rendering: CSS classes, tooltips, label pixel offsets, scrolling.
- Gate: the session lookup of the authentication library is the `authenticated` flag; URL building and query encoding of the callback, and the route matcher configuration, are not modelled.
- The response's `success` flag and `last10Sessions` (the same list as the month's sessions) are not separate fields of `Dashboard.Summary`.
- Text.ToLower: lowers the ASCII letters A-Z only, where `toLowerCase` lowers every cased character and may change the length ("İ" becomes "i" and a combining dot). The two differ only on non-ASCII characters, and the only one of them `toLowerCase` turns into an ASCII letter, other than "İ", is the Kelvin sign (into "k"). "İ" yields an "i" followed by a combining dot, which cannot continue "running", and "running" has no "k". So both decide whether an exercise name contains "running" the same way, and that is the only use of the result.
- Duration.Parse: its own contract states only the no-match case; its value on the texts `Duration.Format` writes is stated by `Duration.ParseHoursMinutes`, `Duration.ParseMinutesOnly` and `Duration.ParseFormat`.
- Dashboard.Figures: the exercises average of each month is stated by its relation to day-exercise pairs, not by a closed formula over the summaries.

=== FILE: calendar.dfy ===
/** Calendar months as the aggregator compares them: the year and 0-based
    month that `Date.getFullYear` / `Date.getMonth` report for a date key, and
    the month before a target month as `new Date(year, month - 1)` computes
    it. Time zones are not modelled: a key denotes its own calendar day. */
module Calendar {
  import opened Wrappers
  import opened Text

  /** A full year and a 0-based month index, as the `Date` getters give them. */
  datatype YearMonth = YearMonth(year: int, month: int)

  /** The month of an ISO date key `YYYY-MM`, `YYYY-MM-DD...`; any other text
      is an invalid date, which falls in no month. */
  function KeyMonth(key: string): (r: Option<YearMonth>)
    ensures r.Some? ==> 0 <= r.value.year <= 9999 && 0 <= r.value.month < 12
    ensures r.Some? ==> |key| >= 7 && key[4] == '-'
  {
    if |key| >= 7 && AllDigits(key[..4]) && key[4] == '-' && AllDigits(key[5..7])
       && (|key| == 7 || key[7] == '-') && 1 <= Decimal(key[5..7]) <= 12
    then
      DecimalBound(key[..4]);
      Some(YearMonth(Decimal(key[..4]), Decimal(key[5..7]) - 1))
    else None
  }

  lemma {:induction false} DecimalBound(s: string)
    requires AllDigits(s)
    ensures Decimal(s) < Pow10(|s|)
  {
    if |s| > 0 {
      DecimalBound(s[..|s| - 1]);
    }
  }

  /** A number below 10^width written with exactly `width` digits, padded
      with leading zeros. */
  function Padded(n: nat, width: nat): (s: string)
    requires n < Pow10(width)
    ensures |s| == width && AllDigits(s) && Decimal(s) == n
  {
    if width == 0 then []
    else
      var p := Padded(n / 10, width - 1);
      var s := p + [DigitChar(n % 10)];
      assert s[..|s| - 1] == p;
      s
  }

  /** Padding the value of a digit string to its own length gives it back. */
  lemma {:induction false} PaddedDecimal(s: string)
    requires AllDigits(s)
    ensures Decimal(s) < Pow10(|s|)
    ensures Padded(Decimal(s), |s|) == s
  {
    DecimalBound(s);
    if |s| > 0 {
      var init := s[..|s| - 1];
      var c := s[|s| - 1];
      PaddedDecimal(init);
      assert Decimal(s) / 10 == Decimal(init) && Decimal(s) % 10 == DigitValue(c);
      assert DigitChar(DigitValue(c)) == c;
      assert s == init + [c];
    }
  }

  /** A month of a four-digit year. */
  predicate ValidMonth(ym: YearMonth) {
    0 <= ym.year <= 9999 && 0 <= ym.month < 12
  }

  /** The `YYYY-MM` text of a month. */
  function MonthText(ym: YearMonth): (t: string)
    requires ValidMonth(ym)
    ensures |t| == 7
  {
    Padded(ym.year, 4) + "-" + Padded(ym.month + 1, 2)
  }

  /** A key reads as month `ym` exactly when it starts with `ym`'s `YYYY-MM`
      text followed by the end of the key or a `-`; a key of any other shape
      reads as no month. */
  lemma KeyMonthIff(key: string, ym: YearMonth)
    ensures KeyMonth(key) == Some(ym) <==>
              && ValidMonth(ym) && |key| >= 7 && key[..7] == MonthText(ym)
              && (|key| == 7 || key[7] == '-')
  {
    if KeyMonth(key) == Some(ym) {
      KeyMonthWrites(key);
    }
    if ValidMonth(ym) && |key| >= 7 && key[..7] == MonthText(ym) && (|key| == 7 || key[7] == '-') {
      KeyMonthReads(key, ym);
    }
  }

  lemma KeyMonthWrites(key: string)
    requires KeyMonth(key).Some?
    ensures ValidMonth(KeyMonth(key).value) && key[..7] == MonthText(KeyMonth(key).value)
  {
    var y := key[..4];
    var m := key[5..7];
    PaddedDecimal(y);
    PaddedDecimal(m);
    assert key[..7] == y + "-" + m;
  }

  lemma KeyMonthReads(key: string, ym: YearMonth)
    requires ValidMonth(ym) && |key| >= 7 && key[..7] == MonthText(ym)
    requires |key| == 7 || key[7] == '-'
    ensures KeyMonth(key) == Some(ym)
  {
    var y := Padded(ym.year, 4);
    var m := Padded(ym.month + 1, 2);
    assert key[..7] == y + "-" + m;
    assert key[..4] == y;
    assert key[4] == '-';
    assert key[5..7] == m;
  }

  /** The key `YYYY-MM-DD` written for a day of a month. */
  function DayKey(ym: YearMonth, day: nat): string
    requires 0 <= ym.year <= 9999 && 0 <= ym.month < 12 && day < 100
  {
    Padded(ym.year, 4) + "-" + Padded(ym.month + 1, 2) + "-" + Padded(day, 2)
  }

  /** Every `YYYY-MM-DD` key reads back as its own month. */
  lemma DayKeyMonth(ym: YearMonth, day: nat)
    requires 0 <= ym.year <= 9999 && 0 <= ym.month < 12 && day < 100
    ensures KeyMonth(DayKey(ym, day)) == Some(ym)
  {
    var y := Padded(ym.year, 4);
    var m := Padded(ym.month + 1, 2);
    var d := Padded(day, 2);
    var k := y + "-" + m + "-" + d;
    assert k == DayKey(ym, day);
    assert k[..4] == y;
    assert k[4] == '-' && k[7] == '-';
    assert k[5..7] == m;
  }

  /** The full year `new Date(year, ...)` uses: years 0 to 99 denote 1900 to
      1999. */
  function FullYear(year: int): int {
    if 0 <= year <= 99 then 1900 + year else year
  }

  /** `new Date(year, month - 1)` read back through the getters: the month
      index is carried into the year, so the result is a valid month. */
  function PrevMonth(target: YearMonth): (r: YearMonth)
    ensures 0 <= r.month < 12
    ensures r.year * 12 + r.month == FullYear(target.year) * 12 + target.month - 1
  {
    var m := target.month - 1;
    YearMonth(FullYear(target.year) + m / 12, m % 12)
  }

  /** For a valid month of a four-digit year the previous month is the one
      before it in the same year, and January wraps to December of the year
      before. */
  lemma PrevMonthWraps(target: YearMonth)
    requires 0 <= target.month < 12 && target.year >= 100
    ensures target.month > 0 ==> PrevMonth(target) == YearMonth(target.year, target.month - 1)
    ensures target.month == 0 ==> PrevMonth(target) == YearMonth(target.year - 1, 11)
  {
  }
}

=== FILE: dashboard.dfy ===
/** The whole aggregation of app/api/csv-data/route.ts for one parsed table:
    detect the date column, group the rows by day, convert and sort the days,
    and compute the dashboard's figures for the target month and the month
    before it. */
module Dashboard {
  import opened Wrappers
  import opened Numbers
  import opened Calendar
  import opened Grouping
  import opened Summaries
  import opened MonthStats
  import Duration

  // ---------------------------------------------------------------------------
  // What reading a table's rows means for the grouped days.

  /** The rows with a non-empty date cell, in input order. */
  function DatedRows(rows: seq<Row>, column: string): seq<Row> {
    if |rows| == 0 then []
    else
      var last := rows[|rows| - 1];
      DatedRows(rows[..|rows| - 1], column) + if Dated(last, column) then [last] else []
  }

  /** Total distance of the running rows. */
  function RunningDistance(rows: seq<Row>): real {
    if |rows| == 0 then 0.0
    else
      var last := rows[|rows| - 1];
      RunningDistance(rows[..|rows| - 1]) + if IsRunning(last) then last.distance else 0.0
  }

  /** Total weight times reps. */
  function LiftedVolume(rows: seq<Row>): real {
    if |rows| == 0 then 0.0
    else
      var last := rows[|rows| - 1];
      LiftedVolume(rows[..|rows| - 1]) + last.weight * last.reps
  }

  /** The rows filed under some day are exactly the rows with a date: a row
      with an empty date cell contributes to no day. */
  lemma {:induction false} FiledRowsAreDated(rows: seq<Row>, column: string, maxMinutes: int)
    ensures KeyedRows(rows, ReadRow(column, maxMinutes)) == DatedRows(rows, column)
  {
    if |rows| > 0 {
      FiledRowsAreDated(rows[..|rows| - 1], column, maxMinutes);
    }
  }

  /** Distance is accumulated from running rows only. */
  lemma {:induction false} DistanceFromRunningOnly(rows: seq<Row>, column: string, maxMinutes: int)
    ensures TotalDistance(rows, ReadRow(column, maxMinutes)) == RunningDistance(rows)
  {
    if |rows| > 0 {
      DistanceFromRunningOnly(rows[..|rows| - 1], column, maxMinutes);
    }
  }

  /** Volume is the sum of weight times reps over all rows of the day. */
  lemma {:induction false} VolumeIsWeightTimesReps(rows: seq<Row>, column: string, maxMinutes: int)
    ensures TotalVolume(rows, ReadRow(column, maxMinutes)) == LiftedVolume(rows)
  {
    if |rows| > 0 {
      VolumeIsWeightTimesReps(rows[..|rows| - 1], column, maxMinutes);
    }
  }

  /** Every duration text recorded for a day parses to a positive number of
      minutes no greater than the ceiling. */
  lemma RecordedDurationsValid(rows: seq<Row>, column: string, maxMinutes: int, key: string)
    requires key in GroupRows(rows, column, maxMinutes)
    ensures forall i :: 0 <= i < |GroupRows(rows, column, maxMinutes)[key].durations| ==>
              IsValidDuration(GroupRows(rows, column, maxMinutes)[key].durations[i], maxMinutes)
  {
    var read := ReadRow(column, maxMinutes);
    var day := GroupRows(rows, column, maxMinutes)[key];
    forall i | 0 <= i < |day.durations|
      ensures IsValidDuration(day.durations[i], maxMinutes)
    {
      assert day.durations[i] in ValidDurations(RowsOn(rows, read, key), read);
    }
  }

  /** A day whose recorded durations are all valid has a duration exactly
      when it recorded one, and that duration lies within the ceiling. */
  lemma DurationWithinCeiling(date: string, day: DayAcc, maxMinutes: int)
    requires forall i :: 0 <= i < |day.durations| ==> IsValidDuration(day.durations[i], maxMinutes)
    ensures var g := ToDateGroup(date, day);
      && (g.durationMinutes.Some? <==> |day.durations| > 0)
      && (g.duration.Some? <==> g.durationMinutes.Some?)
      && (g.durationMinutes.Some? ==> 0 < g.durationMinutes.value <= maxMinutes)
  {
    SummaryDuration(date, day);
    if |day.durations| > 0 {
      assert IsValidDuration(day.durations[0], maxMinutes);
    }
  }

  /** `g`'s duration is the day's longest valid duration: present exactly
      when the day's rows have a valid duration text `vd`, then the
      greatest number of minutes any of them reads as, and written as text
      that reads back as it. */
  ghost predicate DurationOfDay(g: DateGroup, vd: set<string>) {
    && (g.durationMinutes.Some? <==> vd != {})
    && (g.duration.Some? <==> g.durationMinutes.Some?)
    && (g.durationMinutes.Some? ==>
          && (exists d :: d in vd && Duration.Parse(d) == g.durationMinutes.value)
          && (forall d :: d in vd ==> Duration.Parse(d) <= g.durationMinutes.value)
          && Duration.Parse(g.duration.value) == g.durationMinutes.value)
  }

  /** A day that recorded exactly the valid duration texts `vd` gets the
      longest of them as its duration. */
  lemma DayDuration(date: string, day: DayAcc, vd: set<string>, maxMinutes: int)
    requires forall i :: 0 <= i < |day.durations| ==> IsValidDuration(day.durations[i], maxMinutes)
    requires forall d :: d in day.durations <==> d in vd
    ensures DurationOfDay(ToDateGroup(date, day), vd)
  {
    SummaryDuration(date, day);
    DurationPresent(date, day, vd, maxMinutes);
    DurationGreatest(date, day, vd);
  }

  lemma DurationPresent(date: string, day: DayAcc, vd: set<string>, maxMinutes: int)
    requires forall i :: 0 <= i < |day.durations| ==> IsValidDuration(day.durations[i], maxMinutes)
    requires forall d :: d in day.durations <==> d in vd
    ensures ToDateGroup(date, day).durationMinutes.Some? <==> vd != {}
  {
    var present := ToDateGroup(date, day).durationMinutes.Some?;
    assert present <==> exists i :: 0 <= i < |day.durations| && Duration.Parse(day.durations[i]) > 0 by {
      SummaryDuration(date, day);
    }
    if present {
      var i :| 0 <= i < |day.durations| && Duration.Parse(day.durations[i]) > 0;
      assert day.durations[i] in vd;
    }
    if vd != {} {
      var d :| d in vd;
      var i :| 0 <= i < |day.durations| && day.durations[i] == d;
      assert IsValidDuration(day.durations[i], maxMinutes);
    }
  }

  lemma DurationGreatest(date: string, day: DayAcc, vd: set<string>)
    requires forall d :: d in day.durations <==> d in vd
    ensures var g := ToDateGroup(date, day);
      g.durationMinutes.Some? ==>
        && (exists d :: d in vd && Duration.Parse(d) == g.durationMinutes.value)
        && (forall d :: d in vd ==> Duration.Parse(d) <= g.durationMinutes.value)
  {
    var m := ToDateGroup(date, day).durationMinutes;
    if m.Some? {
      assert && (exists i :: 0 <= i < |day.durations| && Duration.Parse(day.durations[i]) == m.value)
             && (forall i :: 0 <= i < |day.durations| ==> Duration.Parse(day.durations[i]) <= m.value) by {
        SummaryDuration(date, day);
      }
      var i :| 0 <= i < |day.durations| && Duration.Parse(day.durations[i]) == m.value;
      assert day.durations[i] in vd;
      forall d | d in vd
        ensures Duration.Parse(d) <= m.value
      {
        var j :| 0 <= j < |day.durations| && day.durations[j] == d;
      }
    }
  }

  // ---------------------------------------------------------------------------
  // The response.

  /** The configuration the aggregation runs with: the duration ceiling in
      minutes, the two goals passed through to the page, and the target
      month (`month` counted from 0). */
  datatype Settings = Settings(maxMinutes: int, weeklyGoal: int, volumeIncreaseGoal: real, target: YearMonth)

  /** The averages of one month. */
  datatype MonthFigures = MonthFigures(
    averageDuration: int,
    averageSets: real,
    averageDistance: real,
    averageExercises: real,
    averageReps: real)

  /** The successful response body. */
  datatype Summary = Summary(
    dateColumn: string,
    totalGroups: nat,
    totalRows: nat,
    averageDuration: int,
    sessionCount: nat,
    thisMonth: MonthFigures,
    prevMonth: MonthFigures,
    weeklyGoal: int,
    volumeIncreaseGoal: real,
    groups: seq<DateGroup>,
    sessions: seq<DateGroup>)

  /** `g` summarizes the rows filed under its day: it counts them, rounds
      their weight-times-reps volume and their running distance, and its
      duration is the longest valid duration of those rows, within the
      ceiling. */
  ghost predicate SummarizesDay(g: DateGroup, rows: seq<Row>, column: string, maxMinutes: int) {
    var read := ReadRow(column, maxMinutes);
    && g.date in Keys(rows, read)
    && g.count == |RowsOn(rows, read, g.date)|
    && g.volume == Round(LiftedVolume(RowsOn(rows, read, g.date)))
    && g.distance == RoundCents(RunningDistance(RowsOn(rows, read, g.date)))
    && (g.durationMinutes.Some? ==> 0 < g.durationMinutes.value <= maxMinutes)
    && DurationOfDay(g, ValidDurations(RowsOn(rows, read, g.date), read))
  }

  /** The per-day summaries of a table: one per distinct day, newest first,
      each summarizing the rows filed under it; together they count every
      dated row once. */
  method GroupedData(rows: seq<Row>, column: string, maxMinutes: int) returns (gs: seq<DateGroup>)
    ensures SortedDesc(gs)
    ensures |gs| == |Keys(rows, ReadRow(column, maxMinutes))|
    ensures forall k :: k in Keys(rows, ReadRow(column, maxMinutes)) ==> exists i :: 0 <= i < |gs| && gs[i].date == k
    ensures forall i :: 0 <= i < |gs| ==> SummarizesDay(gs[i], rows, column, maxMinutes)
    ensures SumCounts(gs) == |DatedRows(rows, column)|
  {
    var read := ReadRow(column, maxMinutes);
    var groups := GroupRows(rows, column, maxMinutes);
    gs := SortedGroups(groups);
    forall i | 0 <= i < |gs|
      ensures SummarizesDay(gs[i], rows, column, maxMinutes)
    {
      var k := gs[i].date;
      VolumeIsWeightTimesReps(RowsOn(rows, read, k), column, maxMinutes);
      DistanceFromRunningOnly(RowsOn(rows, read, k), column, maxMinutes);
      RecordedDurationsValid(rows, column, maxMinutes, k);
      DurationWithinCeiling(k, groups[k], maxMinutes);
      DayDuration(k, groups[k], ValidDurations(RowsOn(rows, read, k), read), maxMinutes);
    }
    CountsConserved(rows, read, gs);
    FiledRowsAreDated(rows, column, maxMinutes);
  }

  /** `f` holds the averages of month `ym`: duration, sets and distance over
      the month's day summaries, reps over its rows, and distinct
      day-exercise pairs over days. */
  ghost predicate FiguresOf(f: MonthFigures, gs: seq<DateGroup>, rows: seq<Row>, read: Row -> Reading, ym: YearMonth) {
    var month := FilterMonth(gs, ym);
    var mr := MonthRead(read, ym);
    && f.averageDuration == AverageDuration(month)
    && f.averageSets == AverageSets(month)
    && f.averageDistance == AverageDistance(month)
    && f.averageReps == AverageReps(rows, read, ym)
    && (|Keys(rows, mr)| == 0 ==> f.averageExercises == 0.0)
    && (|Keys(rows, mr)| > 0 ==> f.averageExercises == |Pairs(rows, mr)| as real / |Keys(rows, mr)| as real)
  }

  /** The figures of one month. */
  method Figures(gs: seq<DateGroup>, rows: seq<Row>, read: Row -> Reading, ym: YearMonth) returns (f: MonthFigures)
    ensures FiguresOf(f, gs, rows, read, ym)
  {
    var month := FilterMonth(gs, ym);
    var exercises := AverageExercises(rows, read, ym);
    f := MonthFigures(AverageDuration(month), AverageSets(month), AverageDistance(month), exercises, AverageReps(rows, read, ym));
  }

  /** The response for a parsed table with header list `headers`: the 400
      error when no date column can be chosen, otherwise the summary. */
  method Aggregate(headers: seq<string>, rows: seq<Row>, settings: Settings) returns (r: Result<Summary, Error>)
    ensures r.Err? <==> DetectDateColumn(headers).Err?
    ensures r.Ok? ==>
      var s := r.value;
      var read := ReadRow(s.dateColumn, settings.maxMinutes);
      && s.dateColumn == DetectDateColumn(headers).value
      && s.totalRows == |rows|
      && s.totalGroups == |s.groups| == |Keys(rows, read)|
      && SortedDesc(s.groups)
      && (forall i :: 0 <= i < |s.groups| ==> SummarizesDay(s.groups[i], rows, s.dateColumn, settings.maxMinutes))
      && SumCounts(s.groups) == |DatedRows(rows, s.dateColumn)|
      && s.sessions == MonthSessions(s.groups, settings.target)
      && SortedAsc(s.sessions)
      && s.sessionCount == |s.sessions|
      && s.averageDuration == AverageDuration(s.groups)
      && 0 <= s.averageDuration <= (if settings.maxMinutes > 0 then settings.maxMinutes else 0)
      && FiguresOf(s.thisMonth, s.groups, rows, read, settings.target)
      && FiguresOf(s.prevMonth, s.groups, rows, read, PrevMonth(settings.target))
      && s.weeklyGoal == settings.weeklyGoal
      && s.volumeIncreaseGoal == settings.volumeIncreaseGoal
  {
    match DetectDateColumn(headers)
    case Err(e) =>
      r := Err(e);
    case Ok(column) =>
      var read := ReadRow(column, settings.maxMinutes);
      var gs := GroupedData(rows, column, settings.maxMinutes);
      OverallDuration(gs, rows, column, settings.maxMinutes);
      var sessions := MonthSessions(gs, settings.target);
      var thisMonth := Figures(gs, rows, read, settings.target);
      var prevMonth := Figures(gs, rows, read, PrevMonth(settings.target));
      r := Ok(Summary(column, |gs|, |rows|, AverageDuration(gs), |sessions|, thisMonth, prevMonth,
                      settings.weeklyGoal, settings.volumeIncreaseGoal, gs, sessions));
  }

  /** The overall duration average of summaries within the ceiling is a
      whole number of minutes between 0 and the ceiling. */
  lemma OverallDuration(gs: seq<DateGroup>, rows: seq<Row>, column: string, maxMinutes: int)
    requires forall i :: 0 <= i < |gs| ==> SummarizesDay(gs[i], rows, column, maxMinutes)
    ensures 0 <= AverageDuration(gs) <= (if maxMinutes > 0 then maxMinutes else 0)
  {
    var ceiling: nat := if maxMinutes > 0 then maxMinutes else 0;
    forall i | 0 <= i < |gs| && gs[i].durationMinutes.Some?
      ensures gs[i].durationMinutes.value <= ceiling
    {
      assert SummarizesDay(gs[i], rows, column, maxMinutes);
    }
    AverageDurationBounds(gs, ceiling);
  }
}

=== FILE: duration.dfy ===
/** Free-text session durations such as "1h 12m", "45m" or "2h": the parser
    built on the regular expressions `(\d+)h` and `(\d+)m`, and the formatter
    that writes a minute count back as text
    (app/api/csv-data/route.ts, `parseDuration` and the group conversion). */
module Duration {
  import opened Wrappers
  import opened Text

  /** A match of `(\d+)u` as the half-open range `[start, unitAt)` of its
      captured digits; the unit letter sits at `unitAt`. */
  datatype Capture = Capture(start: nat, unitAt: nat)

  /** The regular expression `(\d+)u` matches `s` at position `i` capturing
      `s[i..j]`: a non-empty run of digits immediately followed by `u`. */
  predicate MatchesWith(s: string, i: int, j: int, unit: char) {
    0 <= i < j < |s| && AllDigits(s[i..j]) && s[j] == unit
  }

  /** Some match of `(\d+)u` starts at position `i`. */
  predicate MatchesAt(s: string, i: int, unit: char) {
    exists j | i < j < |s| :: MatchesWith(s, i, j, unit)
  }

  /** The end of the run of digits that starts at `i`. */
  function RunEnd(s: string, i: nat): (e: nat)
    requires i <= |s|
    ensures i <= e <= |s|
    ensures AllDigits(s[i..e])
    ensures e == |s| || !IsDigit(s[e])
    decreases |s| - i
  {
    if i < |s| && IsDigit(s[i]) then
      var e := RunEnd(s, i + 1);
      assert s[i..e] == [s[i]] + s[i + 1..e];
      e
    else i
  }

  /** Inside a maximal run of digits `s[i..e]`, a match of `(\d+)u` starts at
      any position exactly when the character ending the run is `u`. */
  lemma MatchInRun(s: string, i: int, e: int, unit: char, k: int)
    requires 0 <= i <= k < e <= |s|
    requires AllDigits(s[i..e])
    requires e == |s| || !IsDigit(s[e])
    requires !IsDigit(unit)
    ensures MatchesAt(s, k, unit) <==> e < |s| && s[e] == unit
  {
    if e < |s| && s[e] == unit {
      assert s[k..e] == s[i..e][k - i..];
      assert MatchesWith(s, k, e, unit);
    }
    if MatchesAt(s, k, unit) {
      var j :| k < j < |s| && MatchesWith(s, k, j, unit);
      if j < e {
        assert s[j] == s[i..e][j - i];
      } else if j > e {
        assert s[e] == s[k..j][e - k];
      }
    }
  }

  /** A position holding a non-digit starts no match. */
  lemma NoMatchAtNonDigit(s: string, k: int, unit: char)
    requires 0 <= k < |s| && !IsDigit(s[k])
    ensures !MatchesAt(s, k, unit)
  {
  }

  /** The leftmost match of `(\d+)u` at or after position `i`. */
  function FindFrom(s: string, unit: char, i: nat): (r: Option<Capture>)
    requires i <= |s|
    requires !IsDigit(unit)
    ensures r.None? ==> forall k :: i <= k ==> !MatchesAt(s, k, unit)
    ensures r.Some? ==>
              && i <= r.value.start
              && MatchesWith(s, r.value.start, r.value.unitAt, unit)
              && forall k :: i <= k < r.value.start ==> !MatchesAt(s, k, unit)
    decreases |s| - i
  {
    if i == |s| then
      None
    else if IsDigit(s[i]) then
      var e := RunEnd(s, i);
      forall k | i <= k < e
        ensures MatchesAt(s, k, unit) <==> e < |s| && s[e] == unit
      {
        MatchInRun(s, i, e, unit, k);
      }
      if e < |s| && s[e] == unit then Some(Capture(i, e)) else FindFrom(s, unit, e)
    else
      NoMatchAtNonDigit(s, i, unit);
      FindFrom(s, unit, i + 1)
  }

  /** `s.match(/(\d+)u/)`: the leftmost match, or none when the pattern does
      not occur. */
  function Find(s: string, unit: char): (r: Option<Capture>)
    requires !IsDigit(unit)
    ensures r.None? <==> forall k :: !MatchesAt(s, k, unit)
    ensures r.Some? ==>
              && MatchesWith(s, r.value.start, r.value.unitAt, unit)
              && forall k :: k < r.value.start ==> !MatchesAt(s, k, unit)
  {
    var r := FindFrom(s, unit, 0);
    if r.None? then
      assert forall k :: !MatchesAt(s, k, unit) by {
        forall k ensures !MatchesAt(s, k, unit) {
          if k >= 0 {
            assert !MatchesAt(s, k, unit);
          }
        }
      }
      r
    else
      assert MatchesAt(s, r.value.start, unit);
      r
  }

  /** The number `parseInt` reads from the digits a match captured. */
  function CaptureValue(s: string, unit: char): nat
    requires !IsDigit(unit)
  {
    match Find(s, unit)
    case None => 0
    case Some(c) => Decimal(s[c.start..c.unitAt])
  }

  /** `parseDuration`: sixty times the hours the leftmost `(\d+)h` captures
      plus the minutes the leftmost `(\d+)m` captures, each absent part
      counting 0. */
  function Parse(s: string): (minutes: nat)
    ensures ((forall k :: !MatchesAt(s, k, 'h')) && (forall k :: !MatchesAt(s, k, 'm')))
            ==> minutes == 0
  {
    CaptureValue(s, 'h') * 60 + CaptureValue(s, 'm')
  }

  /** The text written for a positive maximum duration: `"{h}h {m}m"`, or just
      `"{m}m"` when there are no whole hours. */
  function Format(minutes: nat): (s: string)
    ensures |s| > 0 && s[|s| - 1] == 'm'
  {
    var hours := minutes / 60;
    var mins := minutes % 60;
    if hours > 0 then NatToString(hours) + "h " + NatToString(mins) + "m"
    else NatToString(mins) + "m"
  }

  /** The value of a match is determined by where it starts: the capture runs
      to the end of the digit run. */
  lemma CaptureAt(s: string, unit: char, i: nat, e: nat)
    requires !IsDigit(unit)
    requires i < e < |s| && AllDigits(s[i..e]) && s[e] == unit
    requires forall k :: 0 <= k < i ==> !MatchesAt(s, k, unit)
    ensures CaptureValue(s, unit) == Decimal(s[i..e])
  {
    assert MatchesWith(s, i, e, unit);
    assert MatchesAt(s, i, unit);
    var r := Find(s, unit);
    assert r.Some?;
    var c := r.value;
    if c.start != i {
      assert MatchesAt(s, c.start, unit);
      assert false;
    }
    if c.unitAt != e {
      assert false;
    }
  }

  /** Parsing `"{h}h {m}m"` gives `h * 60 + m` minutes. */
  lemma {:induction false} ParseHoursMinutes(h: nat, m: nat)
    ensures Parse(NatToString(h) + "h " + NatToString(m) + "m") == h * 60 + m
  {
    var H := NatToString(h);
    var M := NatToString(m);
    var s := H + "h " + M + "m";
    assert s[..|H|] == H;
    assert s[0..|H|] == H;
    assert s[|H|] == 'h';
    CaptureAt(s, 'h', 0, |H|);
    var i := |H| + 2;
    var e := i + |M|;
    assert s[i..e] == M;
    assert s[e] == 'm';
    forall k | 0 <= k < i
      ensures !MatchesAt(s, k, 'm')
    {
      if k < |H| {
        MatchInRun(s, 0, |H|, 'm', k);
      } else {
        NoMatchAtNonDigit(s, k, 'm');
      }
    }
    CaptureAt(s, 'm', i, e);
  }

  /** Parsing `"{m}m"` gives `m` minutes: there is no hour part. */
  lemma {:induction false} ParseMinutesOnly(m: nat)
    ensures Parse(NatToString(m) + "m") == m
  {
    var M := NatToString(m);
    var s := M + "m";
    assert s[0..|M|] == M;
    assert s[|M|] == 'm';
    CaptureAt(s, 'm', 0, |M|);
    forall k ensures !MatchesAt(s, k, 'h') {
      if 0 <= k < |M| {
        MatchInRun(s, 0, |M|, 'h', k);
      } else if k == |M| {
        NoMatchAtNonDigit(s, k, 'h');
      }
    }
    assert Find(s, 'h').None?;
  }

  /** Round trip: the text written for any minute count parses back to it. */
  lemma {:induction false} ParseFormat(minutes: nat)
    ensures Parse(Format(minutes)) == minutes
  {
    var hours := minutes / 60;
    var mins := minutes % 60;
    if hours > 0 {
      ParseHoursMinutes(hours, mins);
    } else {
      ParseMinutesOnly(mins);
    }
  }
}

=== FILE: gate.dfy ===
/** The authentication gate every matched request passes through
    (middleware.ts): sign-in pages and the sign-in API are always let through,
    any other request needs a session, and a request without one is sent to
    the sign-in page with its path as the callback. */
module Gate {
  import opened Text

  const AuthPrefix: string := "/auth"
  const AuthApiPrefix: string := "/api/auth"
  const SignInPath: string := "/auth/signin"

  /** What the gate looks at: the request path and whether a session is
      attached. */
  datatype Request = Request(pathname: string, authenticated: bool)

  /** Let the request through, or redirect it to `target` with the
      `callbackUrl` query parameter set to `callbackUrl`. */
  datatype Decision = Pass | Redirect(target: string, callbackUrl: string)

  /** The path belongs to the sign-in pages or the sign-in API. */
  predicate IsPublic(pathname: string) {
    StartsWith(pathname, AuthPrefix) || StartsWith(pathname, AuthApiPrefix)
  }

  function Decide(req: Request): (d: Decision)
    ensures d.Pass? <==> IsPublic(req.pathname) || req.authenticated
    ensures d.Redirect? ==> d.target == SignInPath && d.callbackUrl == req.pathname
  {
    if IsPublic(req.pathname) then Pass
    else if !req.authenticated then Redirect(SignInPath, req.pathname)
    else Pass
  }

  /** The sign-in page the gate redirects to is itself let through, so a
      redirect never loops. */
  lemma RedirectTargetPasses(req: Request)
    requires Decide(req).Redirect?
    ensures Decide(Request(Decide(req).target, false)) == Pass
    ensures Decide(Request(Decide(req).target, true)) == Pass
  {
    assert SignInPath[..|AuthPrefix|] == AuthPrefix;
  }
}

=== FILE: grouping.dfy ===
/** The per-day grouping of workout rows (app/api/csv-data/route.ts): the
    date-column choice, the single-pass reduce that files every dated row
    under its day, and the conversion of each day into the summary the
    dashboard shows. */
module Grouping {
  import opened Wrappers
  import opened Text
  import opened Numbers
  import Duration

  /** Header names tried, in this order, for the date column. */
  const DateColumnNames: seq<string> := ["Date", "date", "DATE", "created_at", "timestamp", "Timestamp"]
  const ExerciseColumn: string := "Exercise Name"
  const DurationColumn: string := "Duration"

  /** One parsed CSV row: its text cells by header, and the numbers its
      `Weight`, `Reps` and `Distance` cells parse to (0 when missing or not a
      number). */
  datatype Row = Row(cells: map<string, string>, weight: real, reps: real, distance: real)

  datatype Error = NoColumnsFound

  /** The text of a cell; a missing cell reads as empty, and both are falsy. */
  function Cell(row: Row, column: string): string {
    if column in row.cells then row.cells[column] else ""
  }

  /** Index of the first header in the priority list, if any. */
  function FirstDateHeader(headers: seq<string>): (r: Option<nat>)
    ensures r.None? <==> forall i :: 0 <= i < |headers| ==> headers[i] !in DateColumnNames
    ensures r.Some? ==> r.value < |headers| && headers[r.value] in DateColumnNames
    ensures r.Some? ==> forall i :: 0 <= i < r.value ==> headers[i] !in DateColumnNames
  {
    if |headers| == 0 then None
    else if headers[0] in DateColumnNames then Some(0)
    else
      match FirstDateHeader(headers[1..])
      case None => None
      case Some(i) => Some(i + 1)
  }

  /** The date column: the first header that is a known date-column name,
      otherwise the first header. The choice fails when it is empty text,
      which is the case for a table without headers. */
  function DetectDateColumn(headers: seq<string>): (r: Result<string, Error>)
    ensures r.Ok? ==> r.value != "" && r.value in headers
    ensures r.Ok? && r.value in DateColumnNames ==>
              exists i :: 0 <= i < |headers| && headers[i] == r.value
                          && forall k :: 0 <= k < i ==> headers[k] !in DateColumnNames
    ensures (exists i :: 0 <= i < |headers| && headers[i] in DateColumnNames) ==>
              r.Ok? && r.value in DateColumnNames
    ensures (forall i :: 0 <= i < |headers| ==> headers[i] !in DateColumnNames) ==>
              && (r.Ok? <==> |headers| > 0 && headers[0] != "")
              && (r.Ok? ==> r.value == headers[0])
    ensures |headers| == 0 ==> r == Err(NoColumnsFound)
  {
    match FirstDateHeader(headers)
    case Some(i) => Ok(headers[i])
    case None =>
      if |headers| > 0 && headers[0] != "" then Ok(headers[0]) else Err(NoColumnsFound)
  }

  /** The group key of a date value: its first space-separated token after
      trimming, e.g. "2024-01-05" for "2024-01-05 07:30:00". */
  function DateKey(value: string): (key: string)
    ensures ' ' !in key
    ensures StartsWith(Trim(value), key)
    ensures |key| < |Trim(value)| ==> Trim(value)[|key|] == ' '
  {
    FirstToken(Trim(value))
  }

  /** The row has a non-empty value in the date column. */
  predicate Dated(row: Row, column: string) {
    Cell(row, column) != ""
  }

  /** The row's exercise name, lower-cased, contains "running". */
  predicate IsRunning(row: Row) {
    Contains(ToLower(Cell(row, ExerciseColumn)), "running")
  }

  /** An exercise name that includes "running" as written counts as a
      running exercise, whatever the case of its other letters. */
  lemma NamedRunning(row: Row)
    requires Contains(Cell(row, ExerciseColumn), "running")
    ensures IsRunning(row)
  {
    ContainsLowered(Cell(row, ExerciseColumn), "running");
  }

  /** A duration text is kept when it parses to a positive number of minutes
      no greater than the ceiling. */
  predicate IsValidDuration(text: string, maxMinutes: int) {
    0 < Duration.Parse(text) <= maxMinutes
  }

  /** What the reduce's callback reads from one row: the day it is filed
      under (none when the date cell is empty), its exercise name and duration
      text, whether that text is a valid duration, and its volume and running
      distance. */
  datatype Reading = Reading(
    key: Option<string>,
    exercise: string,
    duration: string,
    durationValid: bool,
    volume: real,
    distance: real)

  /** The callback's reading of a row of a table whose date column is
      `column`: volume is weight times reps, distance counts only for running
      exercises. */
  function ReadRow(column: string, maxMinutes: int): Row -> Reading {
    row => Reading(
      if Dated(row, column) then Some(DateKey(Cell(row, column))) else None,
      Cell(row, ExerciseColumn),
      Cell(row, DurationColumn),
      IsValidDuration(Cell(row, DurationColumn), maxMinutes),
      row.weight * row.reps,
      if IsRunning(row) then row.distance else 0.0)
  }

  /** The accumulator of one day: rows seen, distinct valid duration texts in
      order of first appearance, volume, running distance, exercise names. */
  datatype DayAcc = DayAcc(count: nat, durations: seq<string>, volume: real, distance: real, exercises: set<string>)

  const EmptyDay: DayAcc := DayAcc(0, [], 0.0, 0.0, {})

  /** One row's contribution to its day. A duration text is recorded when it
      is non-empty, not yet recorded, and valid. */
  function AddRow(day: DayAcc, r: Reading): (next: DayAcc)
    ensures next.count == day.count + 1
    ensures NoDuplicates(day.durations) ==> NoDuplicates(next.durations)
    ensures forall d :: d in next.durations <==>
              d in day.durations || (d == r.duration && r.duration != "" && r.durationValid)
  {
    DayAcc(
      day.count + 1,
      if r.duration != "" && r.duration !in day.durations && r.durationValid
      then day.durations + [r.duration] else day.durations,
      day.volume + r.volume,
      day.distance + r.distance,
      if r.exercise != "" then day.exercises + {r.exercise} else day.exercises)
  }

  // ---------------------------------------------------------------------------
  // Reference definitions: what a day should hold, stated over its rows.

  /** The rows filed under `key`, in input order. */
  function RowsOn(rows: seq<Row>, read: Row -> Reading, key: string): (day: seq<Row>)
    ensures |day| <= |rows|
    ensures forall r :: r in day ==> r in rows && read(r).key == Some(key)
  {
    if |rows| == 0 then []
    else
      var last := rows[|rows| - 1];
      RowsOn(rows[..|rows| - 1], read, key) + if read(last).key == Some(key) then [last] else []
  }

  /** The distinct keys of the rows filed under some key. */
  function Keys(rows: seq<Row>, read: Row -> Reading): set<string> {
    set r | r in rows && read(r).key.Some? :: read(r).key.value
  }

  /** The rows filed under some key, in input order. */
  function KeyedRows(rows: seq<Row>, read: Row -> Reading): seq<Row> {
    if |rows| == 0 then []
    else
      var last := rows[|rows| - 1];
      KeyedRows(rows[..|rows| - 1], read) + if read(last).key.Some? then [last] else []
  }

  function TotalVolume(rows: seq<Row>, read: Row -> Reading): real {
    if |rows| == 0 then 0.0 else TotalVolume(rows[..|rows| - 1], read) + read(rows[|rows| - 1]).volume
  }

  function TotalDistance(rows: seq<Row>, read: Row -> Reading): real {
    if |rows| == 0 then 0.0 else TotalDistance(rows[..|rows| - 1], read) + read(rows[|rows| - 1]).distance
  }

  /** The non-empty valid duration texts of `rows`. */
  function ValidDurations(rows: seq<Row>, read: Row -> Reading): set<string> {
    set r | r in rows && read(r).duration != "" && read(r).durationValid :: read(r).duration
  }

  /** The non-empty exercise names of `rows`. */
  function Exercises(rows: seq<Row>, read: Row -> Reading): set<string> {
    set r | r in rows && read(r).exercise != "" :: read(r).exercise
  }

  predicate NoDuplicates<T(==)>(xs: seq<T>) {
    forall i, j :: 0 <= i < j < |xs| ==> xs[i] != xs[j]
  }

  /** `day` is the accumulator the rows `rs` of one day produce. */
  ghost predicate Summarizes(day: DayAcc, rs: seq<Row>, read: Row -> Reading) {
    && day.count == |rs|
    && day.volume == TotalVolume(rs, read)
    && day.distance == TotalDistance(rs, read)
    && NoDuplicates(day.durations)
    && (forall d :: d in day.durations <==> d in ValidDurations(rs, read))
    && day.exercises == Exercises(rs, read)
  }

  /** Every accumulator of `groups` summarizes the rows filed under its key. */
  ghost predicate AllSummarize(groups: map<string, DayAcc>, rows: seq<Row>, read: Row -> Reading) {
    forall k :: k in groups ==> Summarizes(groups[k], RowsOn(rows, read, k), read)
  }

  lemma AddRowSummarizes(day: DayAcc, rs: seq<Row>, row: Row, read: Row -> Reading)
    requires Summarizes(day, rs, read)
    ensures Summarizes(AddRow(day, read(row)), rs + [row], read)
  {
    var rs' := rs + [row];
    assert rs'[..|rs'| - 1] == rs;
    assert forall r :: r in rs' <==> r in rs || r == row;
  }

  // ---------------------------------------------------------------------------
  // The reduce.

  /** The reduce's callback: file one row under its day, if it has one. */
  function GroupStep(acc: map<string, DayAcc>, row: Row, read: Row -> Reading): (next: map<string, DayAcc>)
    ensures read(row).key.None? ==> next == acc
    ensures read(row).key.Some? ==> next.Keys == acc.Keys + {read(row).key.value}
    ensures forall k :: k in acc && read(row).key != Some(k) ==> k in next && next[k] == acc[k]
  {
    match read(row).key
    case None => acc
    case Some(k) => acc[k := AddRow(if k in acc then acc[k] else EmptyDay, read(row))]
  }

  /** The grouping reduce: one accumulator per distinct key, each summarizing
      exactly the rows filed under that key. */
  function GroupBy(rows: seq<Row>, read: Row -> Reading): (groups: map<string, DayAcc>)
    ensures groups.Keys == Keys(rows, read)
    ensures AllSummarize(groups, rows, read)
  {
    if |rows| == 0 then map[]
    else
      var acc := GroupBy(rows[..|rows| - 1], read);
      GroupStepSummarizes(rows, acc, read);
      GroupStep(acc, rows[|rows| - 1], read)
  }

  /** The reduce over the rows of a table whose date column is `column`. */
  function GroupRows(rows: seq<Row>, column: string, maxMinutes: int): map<string, DayAcc> {
    GroupBy(rows, ReadRow(column, maxMinutes))
  }

  lemma GroupStepSummarizes(rows: seq<Row>, acc: map<string, DayAcc>, read: Row -> Reading)
    requires |rows| > 0
    requires acc.Keys == Keys(rows[..|rows| - 1], read)
    requires AllSummarize(acc, rows[..|rows| - 1], read)
    ensures GroupStep(acc, rows[|rows| - 1], read).Keys == Keys(rows, read)
    ensures AllSummarize(GroupStep(acc, rows[|rows| - 1], read), rows, read)
  {
    KeysStep(rows, read);
    var next := GroupStep(acc, rows[|rows| - 1], read);
    forall k | k in next
      ensures Summarizes(next[k], RowsOn(rows, read, k), read)
    {
      StepKey(rows, acc, read, k);
    }
  }

  lemma StepKey(rows: seq<Row>, acc: map<string, DayAcc>, read: Row -> Reading, key: string)
    requires |rows| > 0
    requires acc.Keys == Keys(rows[..|rows| - 1], read)
    requires AllSummarize(acc, rows[..|rows| - 1], read)
    requires key in GroupStep(acc, rows[|rows| - 1], read)
    ensures Summarizes(GroupStep(acc, rows[|rows| - 1], read)[key], RowsOn(rows, read, key), read)
  {
    if read(rows[|rows| - 1]).key == Some(key) {
      StepKeyHit(rows, acc, read, key);
    } else {
      RowsOnSkips(rows, read, key);
    }
  }

  /** The last row is filed under `key`: its day gains that row. */
  lemma StepKeyHit(rows: seq<Row>, acc: map<string, DayAcc>, read: Row -> Reading, key: string)
    requires |rows| > 0 && read(rows[|rows| - 1]).key == Some(key)
    requires acc.Keys == Keys(rows[..|rows| - 1], read)
    requires AllSummarize(acc, rows[..|rows| - 1], read)
    ensures Summarizes(GroupStep(acc, rows[|rows| - 1], read)[key], RowsOn(rows, read, key), read)
  {
    var init := rows[..|rows| - 1];
    var row := rows[|rows| - 1];
    var before := if key in acc then acc[key] else EmptyDay;
    BeforeSummarizes(init, acc, read, key);
    AddRowSummarizes(before, RowsOn(init, read, key), row, read);
    assert GroupStep(acc, row, read)[key] == AddRow(before, read(row));
  }

  /** Before the row, the day of `key` summarizes the rows seen so far. */
  lemma BeforeSummarizes(init: seq<Row>, acc: map<string, DayAcc>, read: Row -> Reading, key: string)
    requires acc.Keys == Keys(init, read)
    requires AllSummarize(acc, init, read)
    ensures Summarizes(if key in acc then acc[key] else EmptyDay, RowsOn(init, read, key), read)
  {
    if key !in acc {
      NoRowsOffKey(init, read, key);
    }
  }

  /** A last row filed elsewhere adds nothing to the rows on `key`. */
  lemma RowsOnSkips(rows: seq<Row>, read: Row -> Reading, key: string)
    requires |rows| > 0 && read(rows[|rows| - 1]).key != Some(key)
    ensures RowsOn(rows, read, key) == RowsOn(rows[..|rows| - 1], read, key)
  {
  }

  lemma KeysStep(rows: seq<Row>, read: Row -> Reading)
    requires |rows| > 0
    ensures Keys(rows, read) == Keys(rows[..|rows| - 1], read)
              + if read(rows[|rows| - 1]).key.Some? then {read(rows[|rows| - 1]).key.value} else {}
  {
    var init := rows[..|rows| - 1];
    assert rows == init + [rows[|rows| - 1]];
    assert forall r :: r in rows <==> r in init || r == rows[|rows| - 1];
  }

  /** A key no row has files no rows. */
  lemma {:induction false} NoRowsOffKey(rows: seq<Row>, read: Row -> Reading, key: string)
    requires key !in Keys(rows, read)
    ensures RowsOn(rows, read, key) == []
  {
    if |rows| > 0 {
      KeysStep(rows, read);
      NoRowsOffKey(rows[..|rows| - 1], read, key);
    }
  }
}

=== FILE: heatmap.dfy ===
/** The year-to-date workout heatmap (components/workout-heatmap.tsx): the
    current year's workout dates, the grid of seven-day weeks from 1 January
    to today, the per-cell and per-week workout counts, the weekly goal ring
    and the month labels above the grid.

    The calendar itself is an input: the days from 1 January to today come as
    a list, each with its ISO date text and its month, together with the
    weekday of 1 January (0 = Sunday). */
module Heatmap {
  import opened Wrappers
  import opened Calendar

  type Weekday = d: int | 0 <= d < 7
  type MonthIndex = m: int | 0 <= m < 12

  const MonthNames: seq<string> := ["Jan", "Feb", "Mar", "Apr", "May", "Jun", "Jul", "Aug", "Sep", "Oct", "Nov", "Dec"]

  /** A day of the calendar: its `YYYY-MM-DD` text and its month. */
  datatype CalendarDay = CalendarDay(iso: string, month: MonthIndex)

  /** A cell of the grid: a padding placeholder or a day. */
  datatype Slot = Placeholder | Day(day: CalendarDay)

  /** A month label: the month's short name and the index of its week. */
  datatype Label = Label(month: string, offset: nat)

  // ---------------------------------------------------------------------------
  // The current year's workout dates.

  /** The date text falls in `year`. */
  predicate InYear(date: string, year: int) {
    KeyMonth(date).Some? && KeyMonth(date).value.year == year
  }

  /** The workout dates of `year`, in their original order. */
  function YearDates(dates: seq<string>, year: int): (r: seq<string>)
    ensures |r| <= |dates|
    ensures forall d :: d in r <==> d in dates && InYear(d, year)
  {
    if |dates| == 0 then []
    else
      var init := dates[..|dates| - 1];
      var last := dates[|dates| - 1];
      assert forall d :: d in dates <==> d in init || d == last;
      YearDates(init, year) + if InYear(last, year) then [last] else []
  }

  /** The set the cells are looked up in. */
  function WorkoutSet(dates: seq<string>, year: int): (s: set<string>)
    ensures forall d :: d in s <==> d in dates && InYear(d, year)
  {
    set d | d in YearDates(dates, year)
  }

  // ---------------------------------------------------------------------------
  // The week grid.

  function Pad(n: nat): (r: seq<Slot>)
    ensures |r| == n && forall i :: 0 <= i < n ==> r[i] == Placeholder
  {
    seq(n, _ => Placeholder)
  }

  function DaySlots(days: seq<CalendarDay>): (r: seq<Slot>)
    ensures |r| == |days| && forall i :: 0 <= i < |days| ==> r[i] == Day(days[i])
  {
    seq(|days|, i requires 0 <= i < |days| => Day(days[i]))
  }

  /** The weeks' cells, week after week. */
  function Flatten(weeks: seq<seq<Slot>>): seq<Slot> {
    if |weeks| == 0 then [] else Flatten(weeks[..|weeks| - 1]) + weeks[|weeks| - 1]
  }

  /** The days of a run of cells, placeholders dropped. */
  function RealDays(slots: seq<Slot>): seq<CalendarDay> {
    if |slots| == 0 then []
    else
      RealDays(slots[..|slots| - 1])
      + match slots[|slots| - 1] case Placeholder => [] case Day(d) => [d]
  }

  /** Placeholders closing the last week. */
  function Trailing(first: Weekday, n: nat): nat {
    (7 - (first + n) % 7) % 7
  }

  /** The grid: `first` placeholders, then the days in order, cut into weeks
      of seven, the last week padded with placeholders. */
  method BuildWeeks(first: Weekday, days: seq<CalendarDay>) returns (weeks: seq<seq<Slot>>)
    ensures forall w :: 0 <= w < |weeks| ==> |weeks[w]| == 7
    ensures Flatten(weeks) == Pad(first) + DaySlots(days) + Pad(Trailing(first, |days|))
    ensures |weeks| == (first + |days| + 6) / 7
  {
    weeks := [];
    var week := Pad(first);
    var i := 0;
    while i < |days|
      invariant 0 <= i <= |days|
      invariant |week| < 7
      invariant forall w :: 0 <= w < |weeks| ==> |weeks[w]| == 7
      invariant Flatten(weeks) + week == Pad(first) + DaySlots(days[..i])
      invariant 7 * |weeks| + |week| == first + i
    {
      PushDay(weeks, week, first, days, i);
      week := week + [Day(days[i])];
      if |week| == 7 {
        FlattenSnoc(weeks, week);
        weeks := weeks + [week];
        week := [];
      }
      i := i + 1;
    }
    assert days[..i] == days;
    GridShape(|weeks|, |week|, first, |days|);
    if |week| > 0 {
      var rest := 7 - |week|;
      assert Flatten(weeks) + (week + Pad(rest)) == (Flatten(weeks) + week) + Pad(rest);
      week := week + Pad(rest);
      FlattenSnoc(weeks, week);
      weeks := weeks + [week];
    } else {
      assert Pad(0) == [];
    }
  }

  /** `q` full weeks and `r` further cells make `first + n` cells. */
  lemma GridShape(q: nat, r: nat, first: Weekday, n: nat)
    requires 7 * q + r == first + n && r < 7
    ensures r > 0 ==> Trailing(first, n) == 7 - r && q + 1 == (first + n + 6) / 7
    ensures r == 0 ==> Trailing(first, n) == 0 && q == (first + n + 6) / 7
  {
    assert (first + n) % 7 == r;
    assert (first + n + 6) / 7 == if r > 0 then q + 1 else q;
  }

  lemma PushDay(weeks: seq<seq<Slot>>, week: seq<Slot>, first: Weekday, days: seq<CalendarDay>, i: nat)
    requires i < |days|
    requires Flatten(weeks) + week == Pad(first) + DaySlots(days[..i])
    ensures Flatten(weeks) + (week + [Day(days[i])]) == Pad(first) + DaySlots(days[..i + 1])
  {
    assert DaySlots(days[..i + 1]) == DaySlots(days[..i]) + [Day(days[i])];
    assert Flatten(weeks) + (week + [Day(days[i])]) == (Flatten(weeks) + week) + [Day(days[i])];
  }

  lemma FlattenSnoc(weeks: seq<seq<Slot>>, week: seq<Slot>)
    ensures Flatten(weeks + [week]) == Flatten(weeks) + week
  {
    assert (weeks + [week])[..|weeks|] == weeks;
  }

  /** The grid's days are the calendar's days, each once and in order. */
  lemma GridDays(first: Weekday, days: seq<CalendarDay>, weeks: seq<seq<Slot>>)
    requires Flatten(weeks) == Pad(first) + DaySlots(days) + Pad(Trailing(first, |days|))
    ensures RealDays(Flatten(weeks)) == days
  {
    RealDaysAppend(Pad(first) + DaySlots(days), Pad(Trailing(first, |days|)));
    RealDaysAppend(Pad(first), DaySlots(days));
    RealDaysPad(first);
    RealDaysPad(Trailing(first, |days|));
    RealDaysOfDays(days);
  }

  lemma {:induction false} RealDaysAppend(a: seq<Slot>, b: seq<Slot>)
    ensures RealDays(a + b) == RealDays(a) + RealDays(b)
    decreases |b|
  {
    if |b| == 0 {
      assert a + b == a;
    } else {
      assert (a + b)[..|a + b| - 1] == a + b[..|b| - 1];
      RealDaysAppend(a, b[..|b| - 1]);
    }
  }

  lemma {:induction false} RealDaysPad(n: nat)
    ensures RealDays(Pad(n)) == []
  {
    if n > 0 {
      assert Pad(n)[..n - 1] == Pad(n - 1);
      RealDaysPad(n - 1);
    }
  }

  lemma {:induction false} RealDaysOfDays(days: seq<CalendarDay>)
    ensures RealDays(DaySlots(days)) == days
  {
    if |days| > 0 {
      var init := days[..|days| - 1];
      assert DaySlots(days)[..|days| - 1] == DaySlots(init);
      RealDaysOfDays(init);
    }
  }

  /** The first week opens with `first` placeholders followed by 1 January. */
  lemma FirstWeek(first: Weekday, days: seq<CalendarDay>, weeks: seq<seq<Slot>>)
    requires |days| > 0
    requires forall w :: 0 <= w < |weeks| ==> |weeks[w]| == 7
    requires Flatten(weeks) == Pad(first) + DaySlots(days) + Pad(Trailing(first, |days|))
    ensures |weeks| > 0
    ensures forall i :: 0 <= i < first ==> weeks[0][i] == Placeholder
    ensures weeks[0][first] == Day(days[0])
  {
    assert |Flatten(weeks)| > 0;
    FlattenFirst(weeks);
    assert Flatten(weeks)[first] == Day(days[0]);
  }

  lemma {:induction false} FlattenFirst(weeks: seq<seq<Slot>>)
    requires forall w :: 0 <= w < |weeks| ==> |weeks[w]| == 7
    ensures |Flatten(weeks)| == 7 * |weeks|
    ensures |weeks| > 0 ==> Flatten(weeks)[..7] == weeks[0]
  {
    if |weeks| > 0 {
      FlattenFirst(weeks[..|weeks| - 1]);
    }
  }

  // ---------------------------------------------------------------------------
  // Counts and the weekly goal.

  /** A cell's colour: 0 for a placeholder, 1 for a workout day, 0 for a rest
      day. */
  function SlotCount(slot: Slot, workouts: set<string>): (c: nat)
    ensures c == 1 <==> slot.Day? && slot.day.iso in workouts
    ensures c <= 1
  {
    match slot
    case Placeholder => 0
    case Day(d) => if d.iso in workouts then 1 else 0
  }

  /** The workout days of a week (`filter`). */
  function WorkoutSlots(week: seq<Slot>, workouts: set<string>): (r: seq<Slot>)
    ensures |r| <= |week|
    ensures forall s :: s in r <==> s in week && s.Day? && s.day.iso in workouts
  {
    if |week| == 0 then []
    else
      var init := week[..|week| - 1];
      var last := week[|week| - 1];
      assert forall s :: s in week <==> s in init || s == last;
      WorkoutSlots(init, workouts) + if last.Day? && last.day.iso in workouts then [last] else []
  }

  /** The number of workout days of a week. */
  function WeekCount(week: seq<Slot>, workouts: set<string>): (n: nat)
    ensures n <= |week|
    ensures n == 0 <==> forall i :: 0 <= i < |week| ==> !(week[i].Day? && week[i].day.iso in workouts)
  {
    var ws := WorkoutSlots(week, workouts);
    assert |ws| > 0 ==> ws[0] in ws;
    assert forall i :: 0 <= i < |week| ==> week[i] in week;
    |ws|
  }

  /** A week meets the goal when its workout days reach it. */
  predicate MeetsGoal(week: seq<Slot>, workouts: set<string>, goal: int) {
    WeekCount(week, workouts) >= goal
  }

  function SlotSum(week: seq<Slot>, workouts: set<string>): nat {
    if |week| == 0 then 0 else SlotSum(week[..|week| - 1], workouts) + SlotCount(week[|week| - 1], workouts)
  }

  /** The week's count is the sum of its cells' counts, so the ring and the
      coloured cells agree. */
  lemma {:induction false} WeekCountIsCellSum(week: seq<Slot>, workouts: set<string>)
    ensures WeekCount(week, workouts) == SlotSum(week, workouts)
  {
    if |week| > 0 {
      WeekCountIsCellSum(week[..|week| - 1], workouts);
    }
  }

  /** No week of seven cells counts more than seven workout days; a goal of
      at most 0 is always met and a goal above 7 never is. */
  lemma GoalBounds(week: seq<Slot>, workouts: set<string>, goal: int)
    requires |week| == 7
    ensures WeekCount(week, workouts) <= 7
    ensures goal <= 0 ==> MeetsGoal(week, workouts, goal)
    ensures goal > 7 ==> !MeetsGoal(week, workouts, goal)
  {
  }

  lemma {:induction false} WeekCountAppend(a: seq<Slot>, b: seq<Slot>, workouts: set<string>)
    ensures WeekCount(a + b, workouts) == WeekCount(a, workouts) + WeekCount(b, workouts)
  {
    WorkoutSlotsAppend(a, b, workouts);
  }

  lemma {:induction false} WorkoutSlotsAppend(a: seq<Slot>, b: seq<Slot>, workouts: set<string>)
    ensures WorkoutSlots(a + b, workouts) == WorkoutSlots(a, workouts) + WorkoutSlots(b, workouts)
    decreases |b|
  {
    if |b| == 0 {
      assert a + b == a;
    } else {
      var b' := b[..|b| - 1];
      assert (a + b)[..|a + b| - 1] == a + b';
      assert (a + b)[|a + b| - 1] == b[|b| - 1];
      WorkoutSlotsAppend(a, b', workouts);
    }
  }

  /** The number of days whose date is a workout date. */
  function WorkoutDays(days: seq<CalendarDay>, workouts: set<string>): nat {
    if |days| == 0 then 0
    else WorkoutDays(days[..|days| - 1], workouts) + if days[|days| - 1].iso in workouts then 1 else 0
  }

  function GridCount(weeks: seq<seq<Slot>>, workouts: set<string>): nat {
    if |weeks| == 0 then 0 else GridCount(weeks[..|weeks| - 1], workouts) + WeekCount(weeks[|weeks| - 1], workouts)
  }

  /** The weeks together count each workout day of the calendar once. */
  lemma GridCountsWorkoutDays(first: Weekday, days: seq<CalendarDay>, weeks: seq<seq<Slot>>, workouts: set<string>)
    requires Flatten(weeks) == Pad(first) + DaySlots(days) + Pad(Trailing(first, |days|))
    ensures GridCount(weeks, workouts) == WorkoutDays(days, workouts)
  {
    GridCountFlatten(weeks, workouts);
    WeekCountAppend(Pad(first) + DaySlots(days), Pad(Trailing(first, |days|)), workouts);
    WeekCountAppend(Pad(first), DaySlots(days), workouts);
    WeekCountPad(first, workouts);
    WeekCountPad(Trailing(first, |days|), workouts);
    WeekCountOfDays(days, workouts);
  }

  lemma {:induction false} GridCountFlatten(weeks: seq<seq<Slot>>, workouts: set<string>)
    ensures GridCount(weeks, workouts) == WeekCount(Flatten(weeks), workouts)
  {
    if |weeks| > 0 {
      GridCountFlatten(weeks[..|weeks| - 1], workouts);
      WeekCountAppend(Flatten(weeks[..|weeks| - 1]), weeks[|weeks| - 1], workouts);
    }
  }

  lemma {:induction false} WeekCountPad(n: nat, workouts: set<string>)
    ensures WeekCount(Pad(n), workouts) == 0
  {
    if n > 0 {
      assert Pad(n)[..n - 1] == Pad(n - 1);
      WeekCountPad(n - 1, workouts);
    }
  }

  lemma {:induction false} WeekCountOfDays(days: seq<CalendarDay>, workouts: set<string>)
    ensures WeekCount(DaySlots(days), workouts) == WorkoutDays(days, workouts)
  {
    if |days| > 0 {
      var init := days[..|days| - 1];
      assert DaySlots(days)[..|days| - 1] == DaySlots(init);
      WeekCountOfDays(init, workouts);
    }
  }

  // ---------------------------------------------------------------------------
  // Month labels.

  /** Position of the first day at or after `k` (`find`). */
  function FirstDayFrom(week: seq<Slot>, k: nat): (r: Option<nat>)
    requires k <= |week|
    ensures r.None? <==> forall i :: k <= i < |week| ==> week[i] == Placeholder
    ensures r.Some? ==> k <= r.value < |week| && week[r.value].Day?
    ensures r.Some? ==> forall i :: k <= i < r.value ==> week[i] == Placeholder
    decreases |week| - k
  {
    if k == |week| then None
    else if week[k].Day? then Some(k)
    else FirstDayFrom(week, k + 1)
  }

  /** The first day of a week, if it has one. */
  function FirstDay(week: seq<Slot>): (r: Option<CalendarDay>)
    ensures r.None? <==> forall i :: 0 <= i < |week| ==> week[i] == Placeholder
    ensures r.Some? ==> exists i :: 0 <= i < |week| && week[i] == Day(r.value)
                                    && forall k :: 0 <= k < i ==> week[k] == Placeholder
  {
    match FirstDayFrom(week, 0)
    case None => None
    case Some(i) => Some(week[i].day)
  }

  /** Month of a week's first day. */
  function WeekMonth(week: seq<Slot>): int {
    match FirstDay(week)
    case Some(d) => d.month
    case None => -1
  }

  lemma MonthNamesDistinct(a: MonthIndex, b: MonthIndex)
    requires a != b
    ensures MonthNames[a] != MonthNames[b]
  {
  }

  /** The month of each week's first day, -1 for a week without days. */
  function WeekMonths(weeks: seq<seq<Slot>>): (ms: seq<int>)
    ensures |ms| == |weeks|
    ensures forall w :: 0 <= w < |weeks| ==> ms[w] == WeekMonth(weeks[w]) && -1 <= ms[w] < 12
  {
    seq(|weeks|, w requires 0 <= w < |weeks| => WeekMonth(weeks[w]))
  }

  /** A label is placed over every week whose first day starts a new month
      relative to the last label placed: labels are in week order, never
      repeat the month of the label before, name the month of their week's
      first day; the first label sits at or before every week with a day, and
      the latest label at or before such a week names that week's month. */
  method MonthLabels(weeks: seq<seq<Slot>>) returns (labels: seq<Label>)
    ensures LabelsFit(WeekMonths(weeks), labels)
  {
    var ms := WeekMonths(weeks);
    labels := [];
    var lastMonth := -1;
    var i := 0;
    NoLabelsYet(ms);
    while i < |weeks|
      invariant 0 <= i <= |weeks|
      invariant LabelsSoFar(ms, i, labels, lastMonth)
    {
      var month := ms[i];
      if month >= 0 && month != lastMonth {
        LabelPlaced(ms, i, labels, lastMonth);
        labels := labels + [Label(MonthNames[month], i)];
        lastMonth := month;
      } else {
        LabelSkipped(ms, i, labels, lastMonth);
      }
      i := i + 1;
    }
    FitsAll(ms, labels, lastMonth);
  }

  /** The labels over weeks whose first days have months `ms` (-1 for none):
      each names the month of its week; two labels in a row are in week order
      and name different months; the first label is at or before every week
      with a day; the latest label at or before such a week names its month. */
  ghost predicate LabelsFit(ms: seq<int>, labels: seq<Label>) {
    && (forall j :: 0 <= j < |labels| ==> Names(ms, labels[j]))
    && (forall j :: 0 < j < |labels| ==>
          labels[j - 1].offset < labels[j].offset && labels[j - 1].month != labels[j].month)
    && (forall w :: 0 <= w < |ms| && ms[w] >= 0 ==> |labels| > 0 && labels[0].offset <= w)
    && (forall w, j :: 0 <= w < |ms| && 0 <= ms[w] < 12 && Latest(labels, j, w) ==> labels[j].month == MonthNames[ms[w]])
  }

  lemma NoLabelsYet(ms: seq<int>)
    requires forall w :: 0 <= w < |ms| ==> -1 <= ms[w] < 12
    ensures LabelsSoFar(ms, 0, [], -1)
  {
  }

  lemma FitsAll(ms: seq<int>, labels: seq<Label>, lastMonth: int)
    requires LabelsSoFar(ms, |ms|, labels, lastMonth)
    ensures LabelsFit(ms, labels)
  {
  }

  /** What the labels placed over the first `i` weeks satisfy. */
  ghost predicate LabelsSoFar(ms: seq<int>, i: int, labels: seq<Label>, lastMonth: int) {
    && 0 <= i <= |ms|
    && (forall w :: 0 <= w < |ms| ==> -1 <= ms[w] < 12)
    && -1 <= lastMonth < 12
    && ((lastMonth == -1) <==> |labels| == 0)
    && (lastMonth >= 0 ==> labels[|labels| - 1].month == MonthNames[lastMonth])
    && (forall j :: 0 <= j < |labels| ==> labels[j].offset < i && Names(ms, labels[j]))
    && (forall j :: 0 < j < |labels| ==>
          labels[j - 1].offset < labels[j].offset && labels[j - 1].month != labels[j].month)
    && (forall w :: 0 <= w < i && ms[w] >= 0 ==> |labels| > 0 && labels[0].offset <= w)
    && (forall w, j :: 0 <= w < i && 0 <= ms[w] < 12 && Latest(labels, j, w) ==> labels[j].month == MonthNames[ms[w]])
  }

  lemma LabelPlaced(ms: seq<int>, i: int, labels: seq<Label>, lastMonth: int)
    requires LabelsSoFar(ms, i, labels, lastMonth) && i < |ms|
    requires ms[i] >= 0 && ms[i] != lastMonth
    ensures LabelsSoFar(ms, i + 1, labels + [Label(MonthNames[ms[i]], i)], ms[i])
  {
    var tag := Label(MonthNames[ms[i]], i);
    if lastMonth >= 0 {
      MonthNamesDistinct(ms[i], lastMonth);
    }
    PlacedInOrder(labels, tag);
    PlacedLatest(ms, i, labels, tag);
  }

  /** Appending a label over a later week with a different month than the
      last label keeps labels in week order with no month repeated. */
  lemma PlacedInOrder(labels: seq<Label>, tag: Label)
    requires forall j :: 0 < j < |labels| ==>
               labels[j - 1].offset < labels[j].offset && labels[j - 1].month != labels[j].month
    requires |labels| > 0 ==> labels[|labels| - 1].offset < tag.offset && labels[|labels| - 1].month != tag.month
    ensures forall j :: 0 < j < |labels + [tag]| ==>
              (labels + [tag])[j - 1].offset < (labels + [tag])[j].offset
              && (labels + [tag])[j - 1].month != (labels + [tag])[j].month
  {
  }

  /** After a label over week `i` naming its month, the latest label at or
      before any week up to `i` still names that week's month. */
  lemma PlacedLatest(ms: seq<int>, i: int, labels: seq<Label>, tag: Label)
    requires 0 <= i < |ms| && 0 <= ms[i] < 12 && tag == Label(MonthNames[ms[i]], i)
    requires forall j :: 0 <= j < |labels| ==> labels[j].offset < i
    requires forall w, j :: 0 <= w < i && 0 <= ms[w] < 12 && Latest(labels, j, w) ==> labels[j].month == MonthNames[ms[w]]
    ensures forall w, j :: 0 <= w < i + 1 && 0 <= ms[w] < 12 && Latest(labels + [tag], j, w) ==>
              (labels + [tag])[j].month == MonthNames[ms[w]]
  {
    forall w, j | 0 <= w < i + 1 && 0 <= ms[w] < 12 && Latest(labels + [tag], j, w)
      ensures (labels + [tag])[j].month == MonthNames[ms[w]]
    {
      if w < i {
        LatestBefore(labels, tag, j, w);
      }
    }
  }

  /** A label placed after week `w` leaves the latest label at or before `w`
      unchanged. */
  lemma LatestBefore(labels: seq<Label>, tag: Label, j: int, w: int)
    requires forall k :: 0 <= k < |labels| ==> labels[k].offset <= w || labels[k].offset < tag.offset
    requires w < tag.offset
    requires Latest(labels + [tag], j, w)
    ensures j < |labels| && Latest(labels, j, w)
  {
  }

  lemma LabelSkipped(ms: seq<int>, i: int, labels: seq<Label>, lastMonth: int)
    requires LabelsSoFar(ms, i, labels, lastMonth) && i < |ms|
    requires !(ms[i] >= 0 && ms[i] != lastMonth)
    ensures LabelsSoFar(ms, i + 1, labels, lastMonth)
  {
    forall w, j | 0 <= w < i + 1 && 0 <= ms[w] < 12 && Latest(labels, j, w)
      ensures labels[j].month == MonthNames[ms[w]]
    {
      if w == i {
        assert j == |labels| - 1;
      }
    }
  }

  /** The label names the month of its week's first day. */
  predicate Names(ms: seq<int>, tag: Label) {
    && tag.offset < |ms|
    && 0 <= ms[tag.offset] < 12
    && tag.month == MonthNames[ms[tag.offset]]
  }

  /** Label `j` is the last one placed at or before week `w`. */
  predicate Latest(labels: seq<Label>, j: int, w: int) {
    0 <= j < |labels| && labels[j].offset <= w && (j == |labels| - 1 || labels[j + 1].offset > w)
  }
}

=== FILE: monthstats.dfy ===
/** Month-scoped statistics (app/api/csv-data/route.ts): the days and rows of
    a target month and of the month before it, and the averages shown on the
    dashboard. Every average divides a total by the size of its own filtered
    list and is 0 when that list is empty. */
module MonthStats {
  import opened Wrappers
  import opened Text
  import opened Numbers
  import opened Calendar
  import opened Grouping
  import opened Summaries

  /** The date falls in the given month (`getFullYear() === year &&
      getMonth() === month`). */
  predicate InMonth(date: string, ym: YearMonth) {
    KeyMonth(date) == Some(ym)
  }

  /** The summaries of a month, in their original order. */
  function FilterMonth(gs: seq<DateGroup>, ym: YearMonth): (r: seq<DateGroup>)
    ensures |r| <= |gs|
    ensures forall g :: g in r <==> g in gs && InMonth(g.date, ym)
  {
    if |gs| == 0 then []
    else
      var init := gs[..|gs| - 1];
      var last := gs[|gs| - 1];
      assert forall g :: g in gs <==> g in init || g == last;
      FilterMonth(init, ym) + if InMonth(last.date, ym) then [last] else []
  }

  /** Filtering keeps the descending order. */
  lemma {:induction false} FilterMonthSorted(gs: seq<DateGroup>, ym: YearMonth)
    ensures SortedDesc(gs) ==> SortedDesc(FilterMonth(gs, ym))
  {
    if |gs| > 0 && SortedDesc(gs) {
      var init := gs[..|gs| - 1];
      var last := gs[|gs| - 1];
      var r := FilterMonth(init, ym);
      assert SortedDesc(init);
      FilterMonthSorted(init, ym);
      forall g | g in r
        ensures Less(last.date, g.date)
      {
        var i :| 0 <= i < |init| && init[i] == g;
      }
    }
  }

  function Reverse<T>(xs: seq<T>): (r: seq<T>)
    ensures |r| == |xs|
    ensures forall i :: 0 <= i < |xs| ==> r[i] == xs[|xs| - 1 - i]
  {
    if |xs| == 0 then [] else Reverse(xs[1..]) + [xs[0]]
  }

  /** Strictly ascending by date. */
  predicate SortedAsc(gs: seq<DateGroup>) {
    forall i, j :: 0 <= i < j < |gs| ==> Less(gs[i].date, gs[j].date)
  }

  /** The target month's sessions, oldest first, as the charts want them. */
  function MonthSessions(gs: seq<DateGroup>, ym: YearMonth): (r: seq<DateGroup>)
    ensures |r| <= |gs|
    ensures forall g :: g in r <==> g in gs && InMonth(g.date, ym)
    ensures SortedDesc(gs) ==> SortedAsc(r)
  {
    var f := FilterMonth(gs, ym);
    var r := Reverse(f);
    FilterMonthSorted(gs, ym);
    assert forall g :: g in r <==> g in f by {
      forall g | g in f ensures g in r {
        var i :| 0 <= i < |f| && f[i] == g;
        assert r[|f| - 1 - i] == g;
      }
    }
    r
  }

  // ---------------------------------------------------------------------------
  // Averages over days.

  /** The durations of the days that have one (`filter(s => s.durationMinutes)`,
      which also drops a duration of 0). */
  function DurationValues(gs: seq<DateGroup>): (xs: seq<real>)
    ensures |xs| <= |gs|
  {
    if |gs| == 0 then []
    else
      var last := gs[|gs| - 1];
      DurationValues(gs[..|gs| - 1])
      + match last.durationMinutes
        case Some(m) => if m != 0 then [m as real] else []
        case None => []
  }

  /** The counts of all days. */
  function CountValues(gs: seq<DateGroup>): (xs: seq<real>)
    ensures |xs| == |gs|
  {
    if |gs| == 0 then [] else CountValues(gs[..|gs| - 1]) + [gs[|gs| - 1].count as real]
  }

  /** The distances of the days that have a positive one. */
  function DistanceValues(gs: seq<DateGroup>): (xs: seq<real>)
    ensures |xs| <= |gs|
    ensures forall i :: 0 <= i < |xs| ==> xs[i] > 0.0
  {
    if |gs| == 0 then []
    else
      var last := gs[|gs| - 1];
      DistanceValues(gs[..|gs| - 1]) + if last.distance > 0.0 then [last.distance] else []
  }

  /** The minutes of the days with a positive duration, added up. */
  function DurationTotal(gs: seq<DateGroup>): nat {
    if |gs| == 0 then 0
    else
      var last := gs[|gs| - 1];
      DurationTotal(gs[..|gs| - 1]) + if last.durationMinutes.Some? then last.durationMinutes.value else 0
  }

  /** The number of days with a positive duration. */
  function DurationDays(gs: seq<DateGroup>): nat {
    if |gs| == 0 then 0
    else
      var last := gs[|gs| - 1];
      DurationDays(gs[..|gs| - 1]) + if last.durationMinutes.Some? && last.durationMinutes.value != 0 then 1 else 0
  }

  /** The distance of the days with a positive distance, added up. */
  function DistanceTotal(gs: seq<DateGroup>): real {
    if |gs| == 0 then 0.0
    else
      var last := gs[|gs| - 1];
      DistanceTotal(gs[..|gs| - 1]) + if last.distance > 0.0 then last.distance else 0.0
  }

  /** The number of days with a positive distance. */
  function DistanceDays(gs: seq<DateGroup>): nat {
    if |gs| == 0 then 0
    else DistanceDays(gs[..|gs| - 1]) + if gs[|gs| - 1].distance > 0.0 then 1 else 0
  }

  /** Average session duration in whole minutes: the minutes of the days
      with a positive duration over their number, rounded; 0 exactly when no
      day has a positive duration. */
  function AverageDuration(gs: seq<DateGroup>): (r: int)
    ensures DurationDays(gs) == 0 ==> r == 0
    ensures DurationDays(gs) > 0 ==> r == Round(DurationTotal(gs) as real / DurationDays(gs) as real)
    ensures r >= 0
    ensures r == 0 <==> forall i :: 0 <= i < |gs| ==> gs[i].durationMinutes.None? || gs[i].durationMinutes.value == 0
  {
    var xs := DurationValues(gs);
    DurationValuesPositive(gs);
    DurationValuesFold(gs);
    if |xs| > 0 then
      MeanAtLeast(xs, 1.0);
      Round(Mean(xs))
    else 0
  }

  /** Average number of sets per session day: the days' total count over
      the number of days, 0 for no days. */
  function AverageSets(gs: seq<DateGroup>): (r: real)
    ensures |gs| == 0 ==> r == 0.0
    ensures |gs| > 0 ==> r == SumCounts(gs) as real / |gs| as real
  {
    CountValuesSum(gs);
    Mean(CountValues(gs))
  }

  /** Average distance over the days with a positive distance: their total
      distance over their number, 0 when there are none; so never negative,
      and positive exactly when some day has a positive distance. */
  function AverageDistance(gs: seq<DateGroup>): (r: real)
    ensures DistanceDays(gs) == 0 ==> r == 0.0
    ensures DistanceDays(gs) > 0 ==> r == DistanceTotal(gs) / DistanceDays(gs) as real
    ensures r >= 0.0
    ensures r > 0.0 <==> exists i :: 0 <= i < |gs| && gs[i].distance > 0.0
  {
    DistanceValuesPresent(gs);
    DistanceValuesFold(gs);
    MeanPositive(DistanceValues(gs));
    Mean(DistanceValues(gs))
  }

  lemma {:induction false} DurationValuesFold(gs: seq<DateGroup>)
    ensures |DurationValues(gs)| == DurationDays(gs)
    ensures Sum(DurationValues(gs)) == DurationTotal(gs) as real
  {
    if |gs| > 0 {
      var init := gs[..|gs| - 1];
      var last := gs[|gs| - 1];
      DurationValuesFold(init);
      if last.durationMinutes.Some? && last.durationMinutes.value != 0 {
        assert DurationValues(gs) == DurationValues(init) + [last.durationMinutes.value as real];
        SumSnoc(DurationValues(init), last.durationMinutes.value as real);
      } else {
        assert DurationValues(gs) == DurationValues(init) + [];
        assert DurationValues(init) + [] == DurationValues(init);
      }
    }
  }

  lemma {:induction false} DistanceValuesFold(gs: seq<DateGroup>)
    ensures |DistanceValues(gs)| == DistanceDays(gs)
    ensures Sum(DistanceValues(gs)) == DistanceTotal(gs)
  {
    if |gs| > 0 {
      var init := gs[..|gs| - 1];
      var last := gs[|gs| - 1];
      DistanceValuesFold(init);
      if last.distance > 0.0 {
        assert DistanceValues(gs) == DistanceValues(init) + [last.distance];
        SumSnoc(DistanceValues(init), last.distance);
      } else {
        assert DistanceValues(gs) == DistanceValues(init) + [];
        assert DistanceValues(init) + [] == DistanceValues(init);
      }
    }
  }

  lemma {:induction false} CountValuesSum(gs: seq<DateGroup>)
    ensures |CountValues(gs)| == |gs|
    ensures Sum(CountValues(gs)) == SumCounts(gs) as real
  {
    if |gs| > 0 {
      CountValuesSum(gs[..|gs| - 1]);
    }
  }

  lemma {:induction false} DurationValuesPositive(gs: seq<DateGroup>)
    ensures forall i :: 0 <= i < |DurationValues(gs)| ==> 1.0 <= DurationValues(gs)[i]
    ensures |DurationValues(gs)| == 0 <==>
              forall i :: 0 <= i < |gs| ==> gs[i].durationMinutes.None? || gs[i].durationMinutes.value == 0
  {
    if |gs| > 0 {
      DurationValuesPositive(gs[..|gs| - 1]);
    }
  }

  /** Durations within the ceiling average to a whole number of minutes
      between 1 and the ceiling; no duration at all averages to 0. */
  lemma {:induction false} AverageDurationBounds(gs: seq<DateGroup>, maxMinutes: nat)
    requires forall i :: 0 <= i < |gs| && gs[i].durationMinutes.Some? ==> gs[i].durationMinutes.value <= maxMinutes
    ensures (forall i :: 0 <= i < |gs| ==> gs[i].durationMinutes.None? || gs[i].durationMinutes.value == 0)
              ==> AverageDuration(gs) == 0
    ensures (exists i :: 0 <= i < |gs| && gs[i].durationMinutes.Some? && gs[i].durationMinutes.value > 0)
              ==> 1 <= AverageDuration(gs) <= maxMinutes
  {
    DurationValuesBounds(gs, maxMinutes);
    MeanBounds(DurationValues(gs), 1.0, maxMinutes as real);
  }

  lemma {:induction false} DurationValuesBounds(gs: seq<DateGroup>, maxMinutes: nat)
    requires forall i :: 0 <= i < |gs| && gs[i].durationMinutes.Some? ==> gs[i].durationMinutes.value <= maxMinutes
    ensures forall i :: 0 <= i < |DurationValues(gs)| ==> 1.0 <= DurationValues(gs)[i] <= maxMinutes as real
    ensures |DurationValues(gs)| == 0 <==>
              forall i :: 0 <= i < |gs| ==> gs[i].durationMinutes.None? || gs[i].durationMinutes.value == 0
  {
    if |gs| > 0 {
      var init := gs[..|gs| - 1];
      DurationValuesBounds(init, maxMinutes);
    }
  }

  /** A day without a duration, wherever it stands in the list, does not
      change the duration average. */
  lemma AverageDurationIgnoresDaysWithout(a: seq<DateGroup>, g: DateGroup, b: seq<DateGroup>)
    requires g.durationMinutes.None? || g.durationMinutes.value == 0
    ensures AverageDuration(a + [g] + b) == AverageDuration(a + b)
  {
    DurationValuesAppend(a + [g], b);
    DurationValuesAppend(a, [g]);
    DurationValuesAppend(a, b);
    assert [g][..0] == [];
    assert DurationValues([g]) == [];
    assert DurationValues(a) + [] == DurationValues(a);
  }

  lemma {:induction false} DurationValuesAppend(a: seq<DateGroup>, b: seq<DateGroup>)
    ensures DurationValues(a + b) == DurationValues(a) + DurationValues(b)
    decreases |b|
  {
    if |b| == 0 {
      assert a + b == a;
    } else {
      var init := b[..|b| - 1];
      assert (a + b)[..|a + b| - 1] == a + init;
      DurationValuesAppend(a, init);
    }
  }

  /** A day without a positive distance, wherever it stands in the list,
      does not change the distance average. */
  lemma AverageDistanceIgnoresRestDays(a: seq<DateGroup>, g: DateGroup, b: seq<DateGroup>)
    requires g.distance <= 0.0
    ensures AverageDistance(a + [g] + b) == AverageDistance(a + b)
  {
    DistanceValuesAppend(a + [g], b);
    DistanceValuesAppend(a, [g]);
    DistanceValuesAppend(a, b);
    assert [g][..0] == [];
    assert DistanceValues([g]) == [];
    assert DistanceValues(a) + [] == DistanceValues(a);
  }

  lemma {:induction false} DistanceValuesAppend(a: seq<DateGroup>, b: seq<DateGroup>)
    ensures DistanceValues(a + b) == DistanceValues(a) + DistanceValues(b)
    decreases |b|
  {
    if |b| == 0 {
      assert a + b == a;
    } else {
      var init := b[..|b| - 1];
      assert (a + b)[..|a + b| - 1] == a + init;
      DistanceValuesAppend(a, init);
    }
  }

  lemma MeanPositive(xs: seq<real>)
    requires forall i :: 0 <= i < |xs| ==> xs[i] > 0.0
    ensures |xs| == 0 ==> Mean(xs) == 0.0
    ensures |xs| > 0 ==> Mean(xs) > 0.0
  {
    if |xs| > 0 {
      SumPositive(xs);
      var n := |xs| as real;
      assert Sum(xs) / n > 0.0;
    }
  }

  lemma {:induction false} DistanceValuesPresent(gs: seq<DateGroup>)
    ensures |DistanceValues(gs)| > 0 <==> exists i :: 0 <= i < |gs| && gs[i].distance > 0.0
  {
    if |gs| > 0 {
      var init := gs[..|gs| - 1];
      DistanceValuesPresent(init);
      if exists i :: 0 <= i < |init| && init[i].distance > 0.0 {
        var i :| 0 <= i < |init| && init[i].distance > 0.0;
        assert gs[i] == init[i];
      }
    }
  }

  lemma {:induction false} SumPositive(xs: seq<real>)
    requires |xs| > 0 && forall i :: 0 <= i < |xs| ==> xs[i] > 0.0
    ensures Sum(xs) > 0.0
  {
    if |xs| > 1 {
      SumPositive(xs[..|xs| - 1]);
    }
  }

  /** The set average lies between the smallest and the largest day. */
  lemma AverageSetsBounds(gs: seq<DateGroup>, lo: nat, hi: nat)
    requires forall i :: 0 <= i < |gs| ==> lo <= gs[i].count <= hi
    ensures |gs| == 0 ==> AverageSets(gs) == 0.0
    ensures |gs| > 0 ==> lo as real <= AverageSets(gs) <= hi as real
  {
    CountValuesBounds(gs, lo, hi);
    MeanBounds(CountValues(gs), lo as real, hi as real);
  }

  lemma {:induction false} CountValuesBounds(gs: seq<DateGroup>, lo: nat, hi: nat)
    requires forall i :: 0 <= i < |gs| ==> lo <= gs[i].count <= hi
    ensures forall i :: 0 <= i < |gs| ==> lo as real <= CountValues(gs)[i] <= hi as real
  {
    if |gs| > 0 {
      CountValuesBounds(gs[..|gs| - 1], lo, hi);
    }
  }

  // ---------------------------------------------------------------------------
  // Averages over rows.

  /** The reading of a row restricted to one month: rows whose day lies
      outside the month are filed under no day, which is what filtering the
      rows on their day's month before a reduce amounts to. */
  function MonthRead(read: Row -> Reading, ym: YearMonth): Row -> Reading {
    r => var x := read(r); if x.key.Some? && InMonth(x.key.value, ym) then x else x.(key := None)
  }

  /** The rows of the month, in input order. */
  function MonthRows(rows: seq<Row>, read: Row -> Reading, ym: YearMonth): seq<Row> {
    KeyedRows(rows, MonthRead(read, ym))
  }

  lemma {:induction false} MonthRowsMembers(rows: seq<Row>, read: Row -> Reading, ym: YearMonth)
    ensures forall r :: r in MonthRows(rows, read, ym) <==>
              r in rows && read(r).key.Some? && InMonth(read(r).key.value, ym)
  {
    if |rows| > 0 {
      var init := rows[..|rows| - 1];
      MonthRowsMembers(init, read, ym);
      assert forall r :: r in rows <==> r in init || r == rows[|rows| - 1];
    }
  }

  function RepsValues(rows: seq<Row>): (xs: seq<real>)
    ensures |xs| == |rows| && forall i :: 0 <= i < |rows| ==> xs[i] == rows[i].reps
  {
    if |rows| == 0 then [] else RepsValues(rows[..|rows| - 1]) + [rows[|rows| - 1].reps]
  }

  /** The reps of `rows`, added up. */
  function TotalReps(rows: seq<Row>): real {
    if |rows| == 0 then 0.0 else TotalReps(rows[..|rows| - 1]) + rows[|rows| - 1].reps
  }

  /** Average reps per set: total reps of the month's rows over their
      number, 0 for a month without rows. */
  function AverageReps(rows: seq<Row>, read: Row -> Reading, ym: YearMonth): (r: real)
    ensures |MonthRows(rows, read, ym)| == 0 ==> r == 0.0
    ensures |MonthRows(rows, read, ym)| > 0 ==>
              r == TotalReps(MonthRows(rows, read, ym)) / |MonthRows(rows, read, ym)| as real
  {
    RepsValuesSum(MonthRows(rows, read, ym));
    Mean(RepsValues(MonthRows(rows, read, ym)))
  }

  lemma {:induction false} RepsValuesSum(rows: seq<Row>)
    ensures Sum(RepsValues(rows)) == TotalReps(rows)
  {
    if |rows| > 0 {
      var init := rows[..|rows| - 1];
      RepsValuesSum(init);
      assert RepsValues(rows)[..|rows| - 1] == RepsValues(init);
    }
  }

  /** The reps average lies within the range of the month's rows, and is 0
      for a month without rows. */
  lemma AverageRepsBounds(rows: seq<Row>, read: Row -> Reading, ym: YearMonth, lo: real, hi: real)
    requires forall r :: r in rows ==> lo <= r.reps <= hi
    ensures |MonthRows(rows, read, ym)| == 0 ==> AverageReps(rows, read, ym) == 0.0
    ensures |MonthRows(rows, read, ym)| > 0 ==> lo <= AverageReps(rows, read, ym) <= hi
  {
    var mr := MonthRows(rows, read, ym);
    MonthRowsMembers(rows, read, ym);
    assert forall i :: 0 <= i < |mr| ==> mr[i] in rows;
    MeanBounds(RepsValues(mr), lo, hi);
  }

  /** The reps average is taken over exactly the sets counted by the month's
      day summaries: the month's rows number as many as the month's days
      count together. */
  lemma MonthRowsAreMonthSets(rows: seq<Row>, read: Row -> Reading, ym: YearMonth, gs: seq<DateGroup>)
    requires SortedDesc(gs)
    requires forall i :: 0 <= i < |gs| ==> gs[i].date in Keys(rows, read) && gs[i].count == |RowsOn(rows, read, gs[i].date)|
    requires forall k :: k in Keys(rows, read) ==> exists i :: 0 <= i < |gs| && gs[i].date == k
    ensures SumCounts(FilterMonth(gs, ym)) == |MonthRows(rows, read, ym)|
  {
    var mr := MonthRead(read, ym);
    var fs := FilterMonth(gs, ym);
    FilterMonthSorted(gs, ym);
    MonthCounts(rows, read, ym, gs);
    forall k | k in Keys(rows, mr)
      ensures exists i :: 0 <= i < |fs| && fs[i].date == k
    {
      var r :| r in rows && mr(r).key.Some? && mr(r).key.value == k;
      assert k in Keys(rows, read);
      var j :| 0 <= j < |gs| && gs[j].date == k;
      assert gs[j] in fs;
      var i :| 0 <= i < |fs| && fs[i] == gs[j];
    }
    CountsConserved(rows, mr, fs);
  }

  lemma MonthCounts(rows: seq<Row>, read: Row -> Reading, ym: YearMonth, gs: seq<DateGroup>)
    requires forall i :: 0 <= i < |gs| ==> gs[i].count == |RowsOn(rows, read, gs[i].date)|
    ensures forall i :: 0 <= i < |FilterMonth(gs, ym)| ==>
              FilterMonth(gs, ym)[i].count == |RowsOn(rows, MonthRead(read, ym), FilterMonth(gs, ym)[i].date)|
  {
    var fs := FilterMonth(gs, ym);
    forall i | 0 <= i < |fs|
      ensures fs[i].count == |RowsOn(rows, MonthRead(read, ym), fs[i].date)|
    {
      assert fs[i] in fs;
      var j :| 0 <= j < |gs| && gs[j] == fs[i];
      RowsOnMonth(rows, read, ym, fs[i].date);
    }
  }

  /** On a day of the month, the month's reading files the same rows. */
  lemma {:induction false} RowsOnMonth(rows: seq<Row>, read: Row -> Reading, ym: YearMonth, key: string)
    requires InMonth(key, ym)
    ensures RowsOn(rows, MonthRead(read, ym), key) == RowsOn(rows, read, key)
  {
    if |rows| > 0 {
      RowsOnMonth(rows[..|rows| - 1], read, ym, key);
    }
  }

  /** The (day, exercise name) pairs of the rows filed under some day. */
  function Pairs(rows: seq<Row>, read: Row -> Reading): set<(string, string)> {
    set r | r in rows && read(r).key.Some? && read(r).exercise != "" :: (read(r).key.value, read(r).exercise)
  }

  /** The pairs a map of days holds for the keys `ks`. */
  function PairsOf(groups: map<string, DayAcc>, ks: set<string>): set<(string, string)> {
    set k, e | k in ks && k in groups && e in groups[k].exercises :: (k, e)
  }

  function Slice(k: string, names: set<string>): set<(string, string)> {
    set e | e in names :: (k, e)
  }

  lemma SliceSize(k: string, names: set<string>)
    ensures |Slice(k, names)| == |names|
    decreases |names|
  {
    if names != {} {
      var e :| e in names;
      assert Slice(k, names) == Slice(k, names - {e}) + {(k, e)};
      SliceSize(k, names - {e});
    }
  }

  lemma PairsOfAdd(groups: map<string, DayAcc>, done: set<string>, k: string)
    requires k in groups && k !in done
    ensures |PairsOf(groups, done + {k})| == |PairsOf(groups, done)| + |groups[k].exercises|
  {
    assert PairsOf(groups, done + {k}) == PairsOf(groups, done) + Slice(k, groups[k].exercises);
    assert PairsOf(groups, done) !! Slice(k, groups[k].exercises);
    SliceSize(k, groups[k].exercises);
  }

  lemma PairsOfAll(rows: seq<Row>, read: Row -> Reading)
    ensures PairsOf(GroupBy(rows, read), GroupBy(rows, read).Keys) == Pairs(rows, read)
  {
    var groups := GroupBy(rows, read);
    forall p | p in Pairs(rows, read)
      ensures p in PairsOf(groups, groups.Keys)
    {
      var r :| r in rows && read(r).key.Some? && read(r).exercise != "" && p == (read(r).key.value, read(r).exercise);
      var k := read(r).key.value;
      assert k in Keys(rows, read);
      InRowsOn(rows, read, r);
      assert read(r).exercise in Exercises(RowsOn(rows, read, k), read);
    }
    forall p | p in PairsOf(groups, groups.Keys)
      ensures p in Pairs(rows, read)
    {
      var k := p.0;
      assert p.1 in Exercises(RowsOn(rows, read, k), read);
      var r :| r in RowsOn(rows, read, k) && read(r).exercise != "" && read(r).exercise == p.1;
    }
  }

  /** A row filed under a day is among that day's rows. */
  lemma {:induction false} InRowsOn(rows: seq<Row>, read: Row -> Reading, r: Row)
    requires r in rows && read(r).key.Some?
    ensures r in RowsOn(rows, read, read(r).key.value)
  {
    var init := rows[..|rows| - 1];
    if r != rows[|rows| - 1] {
      assert r in init;
      InRowsOn(init, read, r);
    }
  }

  /** The total size of the exercise sets of all days. */
  method ExerciseTotal(groups: map<string, DayAcc>) returns (total: nat)
    ensures total == |PairsOf(groups, groups.Keys)|
  {
    var todo := groups.Keys;
    var done: set<string> := {};
    total := 0;
    while todo != {}
      invariant todo + done == groups.Keys && todo !! done
      invariant total == |PairsOf(groups, done)|
      decreases |todo|
    {
      var k :| k in todo;
      PairsOfAdd(groups, done, k);
      total := total + |groups[k].exercises|;
      todo := todo - {k};
      done := done + {k};
    }
  }

  /** Average number of distinct exercises per day of the month: the month's
      rows are grouped by day into sets of exercise names and the set sizes
      are averaged. The result is the number of distinct (day, exercise)
      pairs over the number of days. */
  method AverageExercises(rows: seq<Row>, read: Row -> Reading, ym: YearMonth) returns (avg: real)
    ensures var mr := MonthRead(read, ym);
      && (|Keys(rows, mr)| == 0 ==> avg == 0.0)
      && (|Keys(rows, mr)| > 0 ==> avg == |Pairs(rows, mr)| as real / |Keys(rows, mr)| as real)
  {
    var mr := MonthRead(read, ym);
    var groups := GroupBy(rows, mr);
    var total := ExerciseTotal(groups);
    PairsOfAll(rows, mr);
    avg := if |groups| > 0 then total as real / |groups| as real else 0.0;
  }
}

=== FILE: numbers.dfy ===
/** The arithmetic the aggregator applies to its totals: `Math.round`,
    `toFixed(2)` read back by `parseFloat`, and the "sum over size, or 0 when
    empty" averages. Numbers are exact reals; binary floating point is not
    modelled. */
module Numbers {

  /** `Math.round`: the nearest integer, halves rounded up. */
  function Round(x: real): (r: int)
    ensures r as real - 0.5 <= x < r as real + 0.5
  {
    (x + 0.5).Floor
  }

  /** A whole number of cents. */
  predicate WholeCents(r: real) {
    r * 100.0 == (r * 100.0).Floor as real
  }

  /** The nearest multiple of 0.01 to a non-negative number, halves rounded
      up. */
  function NearestCent(x: real): (r: real)
    requires x >= 0.0
    ensures WholeCents(r)
    ensures x - 0.005 < r <= x + 0.005
    ensures r >= 0.0
  {
    var n := Round(x * 100.0);
    var r := n as real / 100.0;
    assert r * 100.0 == n as real;
    r
  }

  lemma NegatedCents(q: real)
    requires WholeCents(q)
    ensures WholeCents(-q)
  {
    var k := (q * 100.0).Floor;
    assert (-q) * 100.0 == (-k) as real;
  }

  /** `parseFloat(x.toFixed(2))`: the nearest multiple of 0.01, halves
      rounded away from zero. */
  function RoundCents(x: real): (r: real)
    ensures WholeCents(r)
    ensures x - 0.005 <= r <= x + 0.005
    ensures x >= 0.0 ==> r >= 0.0
  {
    if x < 0.0 then
      var q := NearestCent(-x);
      NegatedCents(q);
      -q
    else NearestCent(x)
  }

  function Sum(xs: seq<real>): real {
    if |xs| == 0 then 0.0 else Sum(xs[..|xs| - 1]) + xs[|xs| - 1]
  }

  /** `total / length` of a non-empty list, 0 for an empty one. */
  function Mean(xs: seq<real>): real {
    if |xs| == 0 then 0.0 else Sum(xs) / |xs| as real
  }

  lemma {:induction false} SumBounds(xs: seq<real>, lo: real, hi: real)
    requires forall i :: 0 <= i < |xs| ==> lo <= xs[i] <= hi
    ensures |xs| as real * lo <= Sum(xs) <= |xs| as real * hi
  {
    if |xs| > 0 {
      SumBounds(xs[..|xs| - 1], lo, hi);
    }
  }

  lemma {:induction false} SumAtLeast(xs: seq<real>, lo: real)
    requires forall i :: 0 <= i < |xs| ==> lo <= xs[i]
    ensures |xs| as real * lo <= Sum(xs)
  {
    if |xs| > 0 {
      SumAtLeast(xs[..|xs| - 1], lo);
    }
  }

  lemma SumSnoc(xs: seq<real>, x: real)
    ensures Sum(xs + [x]) == Sum(xs) + x
  {
    assert (xs + [x])[..|xs|] == xs;
  }

  /** An average of values no smaller than `lo` is no smaller than `lo`. */
  lemma MeanAtLeast(xs: seq<real>, lo: real)
    requires forall i :: 0 <= i < |xs| ==> lo <= xs[i]
    ensures |xs| > 0 ==> lo <= Mean(xs)
  {
    if |xs| > 0 {
      SumAtLeast(xs, lo);
      var n := |xs| as real;
      assert Sum(xs) / n >= lo by {
        assert Sum(xs) >= n * lo;
      }
    }
  }

  /** An average lies between the least and the greatest value averaged, and
      is 0 when nothing contributes. */
  lemma MeanBounds(xs: seq<real>, lo: real, hi: real)
    requires forall i :: 0 <= i < |xs| ==> lo <= xs[i] <= hi
    ensures |xs| == 0 ==> Mean(xs) == 0.0
    ensures |xs| > 0 ==> lo <= Mean(xs) <= hi
  {
    if |xs| > 0 {
      SumBounds(xs, lo, hi);
      var n := |xs| as real;
      assert Sum(xs) / n >= lo by {
        assert Sum(xs) >= n * lo;
      }
      assert Sum(xs) / n <= hi by {
        assert Sum(xs) <= n * hi;
      }
    }
  }
}

=== FILE: summaries.dfy ===
/** The per-day summaries the dashboard receives
    (app/api/csv-data/route.ts, the conversion of the grouped map into a
    list): each day's maximum valid duration written back as text, rounded
    volume and distance, and the list sorted by date, newest first. */
module Summaries {
  import opened Wrappers
  import opened Text
  import opened Numbers
  import opened Grouping
  import Duration

  datatype DateGroup = DateGroup(
    date: string,
    count: nat,
    duration: Option<string>,
    durationMinutes: Option<nat>,
    volume: int,
    distance: real)

  /** `durations.map(parseDuration)`. */
  function Parsed(durations: seq<string>): (ms: seq<nat>)
    ensures |ms| == |durations|
    ensures forall i :: 0 <= i < |durations| ==> ms[i] == Duration.Parse(durations[i])
  {
    seq(|durations|, i requires 0 <= i < |durations| => Duration.Parse(durations[i]))
  }

  /** `Math.max` of a non-empty list. */
  function MaxOf(xs: seq<nat>): (m: nat)
    requires |xs| > 0
    ensures exists i :: 0 <= i < |xs| && xs[i] == m
    ensures forall i :: 0 <= i < |xs| ==> xs[i] <= m
  {
    if |xs| == 1 then xs[0]
    else
      var init := xs[..|xs| - 1];
      var m := MaxOf(init);
      assert forall i :: 0 <= i < |init| ==> xs[i] == init[i];
      if xs[|xs| - 1] > m then xs[|xs| - 1] else m
  }

  /** A day's summary: its count, rounded volume and distance, and its
      duration (see `SummaryDuration`). */
  function ToDateGroup(date: string, day: DayAcc): (g: DateGroup)
    ensures g.date == date && g.count == day.count
    ensures g.volume == Round(day.volume) && g.distance == RoundCents(day.distance)
  {
    var parsed := Parsed(day.durations);
    var minutes: Option<nat> := if |parsed| > 0 && MaxOf(parsed) > 0 then Some(MaxOf(parsed)) else None;
    match minutes
    case Some(m) => DateGroup(date, day.count, Some(Duration.Format(m)), minutes, Round(day.volume), RoundCents(day.distance))
    case None => DateGroup(date, day.count, None, None, Round(day.volume), RoundCents(day.distance))
  }

  /** The duration of a day's summary is the greatest of the day's recorded
      durations when some recorded duration is positive, written as text that
      parses back to it; otherwise the summary has no duration. */
  lemma SummaryDuration(date: string, day: DayAcc)
    ensures var g := ToDateGroup(date, day);
      && (g.duration.Some? <==> g.durationMinutes.Some?)
      && (g.durationMinutes.Some? <==>
            exists i :: 0 <= i < |day.durations| && Duration.Parse(day.durations[i]) > 0)
      && (g.durationMinutes.Some? ==>
            && (exists i :: 0 <= i < |day.durations| && Duration.Parse(day.durations[i]) == g.durationMinutes.value)
            && (forall i :: 0 <= i < |day.durations| ==> Duration.Parse(day.durations[i]) <= g.durationMinutes.value)
            && Duration.Parse(g.duration.value) == g.durationMinutes.value)
  {
    var g := ToDateGroup(date, day);
    var parsed := Parsed(day.durations);
    if g.durationMinutes.Some? {
      Duration.ParseFormat(g.durationMinutes.value);
    }
  }

  /** Strictly descending by date: `b.date.localeCompare(a.date)` with
      ordinal comparison, on distinct dates. */
  predicate SortedDesc(gs: seq<DateGroup>) {
    forall i, j :: 0 <= i < j < |gs| ==> Less(gs[j].date, gs[i].date)
  }

  function Dates(gs: seq<DateGroup>): (ds: seq<string>)
    ensures |ds| == |gs| && forall i :: 0 <= i < |gs| ==> ds[i] == gs[i].date
  {
    if |gs| == 0 then [] else [gs[0].date] + Dates(gs[1..])
  }

  /** Insert a summary for a new date into a list sorted newest first. */
  function InsertDesc(gs: seq<DateGroup>, g: DateGroup): (r: seq<DateGroup>)
    requires SortedDesc(gs)
    requires forall i :: 0 <= i < |gs| ==> gs[i].date != g.date
    ensures SortedDesc(r)
    ensures |r| == |gs| + 1
    ensures forall x :: x in r <==> x in gs || x == g
  {
    if |gs| == 0 then [g]
    else if Less(gs[0].date, g.date) then
      forall j | 0 <= j < |gs|
        ensures Less(gs[j].date, g.date)
      {
        if j > 0 {
          LessTransitive(gs[j].date, gs[0].date, g.date);
        }
      }
      [g] + gs
    else
      LessTotal(gs[0].date, g.date);
      var rest := InsertDesc(gs[1..], g);
      assert forall x :: x in gs[1..] ==> Less(x.date, gs[0].date);
      [gs[0]] + rest
  }

  /** `.sort((a, b) => b.date.localeCompare(a.date))` of summaries with
      distinct dates: the same summaries, newest first. */
  function SortDesc(gs: seq<DateGroup>): (r: seq<DateGroup>)
    requires forall i, j :: 0 <= i < j < |gs| ==> gs[i].date != gs[j].date
    ensures SortedDesc(r)
    ensures |r| == |gs|
    ensures forall x :: x in r <==> x in gs
  {
    if |gs| == 0 then []
    else
      var init := gs[..|gs| - 1];
      var last := gs[|gs| - 1];
      var sorted := SortDesc(init);
      assert forall x :: x in gs <==> x in init || x == last;
      forall i | 0 <= i < |sorted|
        ensures sorted[i].date != last.date
      {
        assert sorted[i] in sorted;
        var j :| 0 <= j < |init| && init[j] == sorted[i];
      }
      InsertDesc(sorted, last)
  }

  /** The day summaries of the grouped map, one per key, in no particular
      order (`Object.entries(...).map(...)`), for any conversion that keeps
      the key as the date. */
  method ConvertAll(groups: map<string, DayAcc>, convert: (string, DayAcc) -> DateGroup)
    returns (gs: seq<DateGroup>)
    requires forall k, d :: convert(k, d).date == k
    ensures |gs| == |groups|
    ensures forall i, j :: 0 <= i < j < |gs| ==> gs[i].date != gs[j].date
    ensures forall i :: 0 <= i < |gs| ==> gs[i].date in groups && gs[i] == convert(gs[i].date, groups[gs[i].date])
    ensures forall k :: k in groups ==> exists i :: 0 <= i < |gs| && gs[i].date == k
  {
    gs := [];
    var todo := groups.Keys;
    while todo != {}
      invariant todo <= groups.Keys
      invariant |gs| + |todo| == |groups|
      invariant forall i, j :: 0 <= i < j < |gs| ==> gs[i].date != gs[j].date
      invariant forall i :: 0 <= i < |gs| ==> gs[i].date in groups && gs[i].date !in todo
      invariant forall i :: 0 <= i < |gs| ==> gs[i] == convert(gs[i].date, groups[gs[i].date])
      invariant forall k :: k in groups && k !in todo ==> exists i :: 0 <= i < |gs| && gs[i].date == k
      decreases |todo|
    {
      var k :| k in todo;
      var next := gs + [convert(k, groups[k])];
      assert next[|gs|].date == k;
      assert forall i :: 0 <= i < |gs| ==> next[i] == gs[i];
      gs := next;
      todo := todo - {k};
    }
  }

  /** The grouped map as a list of day summaries sorted by date, newest
      first: one summary per key, each converted from its own day. */
  method SortedGroups(groups: map<string, DayAcc>) returns (gs: seq<DateGroup>)
    ensures SortedDesc(gs)
    ensures |gs| == |groups|
    ensures forall i :: 0 <= i < |gs| ==> gs[i].date in groups && gs[i] == ToDateGroup(gs[i].date, groups[gs[i].date])
    ensures forall k :: k in groups ==> exists i :: 0 <= i < |gs| && gs[i].date == k
  {
    var unsorted := ConvertAll(groups, ToDateGroup);
    gs := SortDesc(unsorted);
    forall i | 0 <= i < |gs|
      ensures gs[i].date in groups && gs[i] == ToDateGroup(gs[i].date, groups[gs[i].date])
    {
      assert gs[i] in unsorted;
      var j :| 0 <= j < |unsorted| && unsorted[j] == gs[i];
    }
    forall k | k in groups
      ensures exists i :: 0 <= i < |gs| && gs[i].date == k
    {
      var j :| 0 <= j < |unsorted| && unsorted[j].date == k;
      assert unsorted[j] in gs;
    }
  }

  // ---------------------------------------------------------------------------
  // Count conservation.

  function SumCounts(gs: seq<DateGroup>): nat {
    if |gs| == 0 then 0 else SumCounts(gs[..|gs| - 1]) + gs[|gs| - 1].count
  }

  /** The number of rows filed under each of `keys`, added up. */
  function CountOn(rows: seq<Row>, read: Row -> Reading, keys: seq<string>): nat {
    if |keys| == 0 then 0 else CountOn(rows, read, keys[..|keys| - 1]) + |RowsOn(rows, read, keys[|keys| - 1])|
  }

  function Occurrences(keys: seq<string>, k: string): nat {
    if |keys| == 0 then 0
    else Occurrences(keys[..|keys| - 1], k) + if keys[|keys| - 1] == k then 1 else 0
  }

  lemma {:induction false} OccursOnce(keys: seq<string>, k: string)
    requires NoDuplicates(keys) && k in keys
    ensures Occurrences(keys, k) == 1
  {
    var init := keys[..|keys| - 1];
    assert NoDuplicates(init);
    if keys[|keys| - 1] == k {
      NeverOccurs(init, k);
    } else {
      assert k in init by {
        var i :| 0 <= i < |keys| && keys[i] == k;
        assert init[i] == k;
      }
      OccursOnce(init, k);
    }
  }

  lemma {:induction false} NeverOccurs(keys: seq<string>, k: string)
    requires k !in keys
    ensures Occurrences(keys, k) == 0
  {
    if |keys| > 0 {
      assert forall x :: x in keys[..|keys| - 1] ==> x in keys;
      NeverOccurs(keys[..|keys| - 1], k);
    }
  }

  /** Adding one row to the table adds it to the count of each key it is
      filed under. */
  lemma {:induction false} CountOnStep(rows: seq<Row>, read: Row -> Reading, keys: seq<string>)
    requires |rows| > 0
    ensures CountOn(rows, read, keys) ==
              CountOn(rows[..|rows| - 1], read, keys)
              + match read(rows[|rows| - 1]).key
                case None => 0
                case Some(k) => Occurrences(keys, k)
  {
    if |keys| > 0 {
      CountOnStep(rows, read, keys[..|keys| - 1]);
    }
  }

  /** Every row with a key is counted exactly once by a duplicate-free list
      of keys that covers all keys. */
  lemma {:induction false} CountOnCovers(rows: seq<Row>, read: Row -> Reading, keys: seq<string>)
    requires NoDuplicates(keys)
    requires forall k :: k in Keys(rows, read) ==> k in keys
    ensures CountOn(rows, read, keys) == |KeyedRows(rows, read)|
  {
    if |rows| == 0 {
      forall i | 0 <= i < |keys|
        ensures RowsOn(rows, read, keys[i]) == []
      {
      }
      CountOnEmpty(rows, read, keys);
    } else {
      var init := rows[..|rows| - 1];
      KeysStep(rows, read);
      CountOnCovers(init, read, keys);
      CountOnStep(rows, read, keys);
      match read(rows[|rows| - 1]).key
      case None =>
      case Some(k) =>
        OccursOnce(keys, k);
    }
  }

  lemma {:induction false} CountOnEmpty(rows: seq<Row>, read: Row -> Reading, keys: seq<string>)
    requires |rows| == 0
    ensures CountOn(rows, read, keys) == 0
  {
    if |keys| > 0 {
      CountOnEmpty(rows, read, keys[..|keys| - 1]);
    }
  }

  lemma {:induction false} SumCountsIsCountOn(rows: seq<Row>, read: Row -> Reading, gs: seq<DateGroup>)
    requires forall i :: 0 <= i < |gs| ==> gs[i].count == |RowsOn(rows, read, gs[i].date)|
    ensures SumCounts(gs) == CountOn(rows, read, Dates(gs))
  {
    if |gs| > 0 {
      var init := gs[..|gs| - 1];
      SumCountsIsCountOn(rows, read, init);
      assert Dates(gs)[..|gs| - 1] == Dates(init);
    }
  }

  lemma SortedHasNoDuplicates(gs: seq<DateGroup>)
    requires SortedDesc(gs)
    ensures NoDuplicates(Dates(gs))
  {
    forall i, j | 0 <= i < j < |gs|
      ensures gs[i].date != gs[j].date
    {
      if gs[i].date == gs[j].date {
        LessIrreflexive(gs[i].date);
      }
    }
  }

  /** Count conservation: the set counts of a date-sorted list holding one
      summary per key, each counting the rows filed under its date, add up to
      the number of rows filed under any key. */
  lemma CountsConserved(rows: seq<Row>, read: Row -> Reading, gs: seq<DateGroup>)
    requires SortedDesc(gs)
    requires forall i :: 0 <= i < |gs| ==> gs[i].count == |RowsOn(rows, read, gs[i].date)|
    requires forall k :: k in Keys(rows, read) ==> exists i :: 0 <= i < |gs| && gs[i].date == k
    ensures SumCounts(gs) == |KeyedRows(rows, read)|
  {
    SortedHasNoDuplicates(gs);
    SumCountsIsCountOn(rows, read, gs);
    forall k | k in Keys(rows, read)
      ensures k in Dates(gs)
    {
      var i :| 0 <= i < |gs| && gs[i].date == k;
      assert Dates(gs)[i] == k;
    }
    CountOnCovers(rows, read, Dates(gs));
  }
}

=== FILE: text.dfy ===
/** String helpers the aggregator relies on: decimal digits as read by
    `parseInt` and written by number-to-string conversion, `trim`,
    `split(' ')[0]`, `startsWith`, `includes`, lower-casing, and the ordinal
    order used to sort date keys. Strings are sequences of Unicode scalar
    values. */
module Text {

  predicate IsDigit(c: char) {
    '0' <= c <= '9'
  }

  predicate AllDigits(s: string) {
    forall i :: 0 <= i < |s| ==> IsDigit(s[i])
  }

  function DigitValue(c: char): (d: nat)
    requires IsDigit(c)
    ensures d < 10
  {
    c as int - '0' as int
  }

  function DigitChar(d: nat): (c: char)
    requires d < 10
    ensures IsDigit(c) && DigitValue(c) == d
  {
    (d + '0' as int) as char
  }

  /** The value `parseInt` gives a string of decimal digits (read left to right). */
  function Decimal(s: string): nat
    requires AllDigits(s)
  {
    if |s| == 0 then 0 else Decimal(s[..|s| - 1]) * 10 + DigitValue(s[|s| - 1])
  }

  function Pow10(n: nat): nat {
    if n == 0 then 1 else 10 * Pow10(n - 1)
  }

  /** Digits are read left to right: the value of `a + b` is the value of
      `a` shifted by the digits of `b`, plus the value of `b`. */
  lemma {:induction false} DecimalAppend(a: string, b: string)
    requires AllDigits(a) && AllDigits(b)
    ensures AllDigits(a + b)
    ensures Decimal(a + b) == Decimal(a) * Pow10(|b|) + Decimal(b)
    decreases |b|
  {
    assert AllDigits(a + b) by {
      forall i | 0 <= i < |a + b| ensures IsDigit((a + b)[i]) {
        if i < |a| { assert (a + b)[i] == a[i]; } else { assert (a + b)[i] == b[i - |a|]; }
      }
    }
    if |b| == 0 {
      assert a + b == a;
    } else {
      var init := b[..|b| - 1];
      var d := DigitValue(b[|b| - 1]);
      assert (a + b)[..|a + b| - 1] == a + init;
      assert (a + b)[|a + b| - 1] == b[|b| - 1];
      DecimalAppend(a, init);
      assert Decimal(a + b) == Decimal(a + init) * 10 + d;
      assert Decimal(b) == Decimal(init) * 10 + d;
      Shift(Decimal(a), Pow10(|init|), Decimal(init), d);
    }
  }

  lemma Shift(x: int, p: int, y: int, d: int)
    ensures (x * p + y) * 10 + d == x * (10 * p) + (y * 10 + d)
  {
  }

  /** The decimal text of a non-negative integer, as `${n}` writes it: no
      leading zero, and `parseInt` reads it back as `n`. */
  function NatToString(n: nat): (s: string)
    ensures |s| > 0 && AllDigits(s)
    ensures Decimal(s) == n
    ensures s[0] == '0' ==> n == 0
  {
    if n < 10 then [DigitChar(n)]
    else
      var p := NatToString(n / 10);
      var s := p + [DigitChar(n % 10)];
      assert s[..|s| - 1] == p;
      s
  }

  predicate StartsWith(s: string, prefix: string) {
    |prefix| <= |s| && s[..|prefix|] == prefix
  }

  predicate ContainsAt(s: string, sub: string, i: int) {
    0 <= i && i + |sub| <= |s| && s[i..i + |sub|] == sub
  }

  /** `s.includes(sub)`. */
  predicate Contains(s: string, sub: string) {
    exists i | 0 <= i <= |s| :: ContainsAt(s, sub, i)
  }

  function LowerChar(c: char): char {
    if 'A' <= c <= 'Z' then (c as int + 32) as char else c
  }

  /** Lower-casing of the ASCII letters. For the only test the aggregator
      makes of a lower-cased name, containment of the ASCII word "running",
      this agrees with full Unicode lower-casing. */
  function ToLower(s: string): (r: string)
    ensures |r| == |s|
    ensures forall i :: 0 <= i < |s| ==> r[i] == LowerChar(s[i])
  {
    if |s| == 0 then [] else [LowerChar(s[0])] + ToLower(s[1..])
  }

  /** Lower-casing keeps every occurrence of a lower-case word: a name that
      includes "running" still includes it once lower-cased. */
  lemma ContainsLowered(s: string, sub: string)
    requires forall k :: 0 <= k < |sub| ==> LowerChar(sub[k]) == sub[k]
    ensures Contains(s, sub) ==> Contains(ToLower(s), sub)
  {
    if Contains(s, sub) {
      var i :| 0 <= i <= |s| && ContainsAt(s, sub, i);
      var t := ToLower(s);
      forall k | 0 <= k < |sub|
        ensures t[i + k] == sub[k]
      {
        assert s[i + k] == s[i..i + |sub|][k];
      }
      assert t[i..i + |sub|] == sub;
      assert ContainsAt(t, sub, i);
    }
  }

  /** The characters `String.prototype.trim` removes: the white space and
      line terminators of the ECMAScript grammar. */
  predicate IsWhiteSpace(c: char) {
    || c == '\t' || c == '\n' || c == '\U{000B}' || c == '\U{000C}' || c == '\r'
    || c == ' ' || c == '\U{00A0}' || c == '\U{1680}'
    || ('\U{2000}' <= c <= '\U{200A}')
    || c == '\U{2028}' || c == '\U{2029}' || c == '\U{202F}' || c == '\U{205F}'
    || c == '\U{3000}' || c == '\U{FEFF}'
  }

  function TrimStart(s: string): (r: string)
    ensures |r| <= |s| && r == s[|s| - |r|..]
    ensures forall i :: 0 <= i < |s| - |r| ==> IsWhiteSpace(s[i])
    ensures |r| > 0 ==> !IsWhiteSpace(r[0])
  {
    if |s| > 0 && IsWhiteSpace(s[0]) then TrimStart(s[1..]) else s
  }

  function TrimEnd(s: string): (r: string)
    ensures |r| <= |s| && r == s[..|r|]
    ensures forall i :: |r| <= i < |s| ==> IsWhiteSpace(s[i])
    ensures |r| > 0 ==> !IsWhiteSpace(r[|r| - 1])
  {
    if |s| > 0 && IsWhiteSpace(s[|s| - 1]) then TrimEnd(s[..|s| - 1]) else s
  }

  /** `s.trim()`: the longest middle slice that neither starts nor ends with
      white space, everything cut off being white space. */
  function Trim(s: string): (r: string)
    ensures exists i, j ::
              && 0 <= i <= j <= |s| && r == s[i..j]
              && (forall k :: 0 <= k < i ==> IsWhiteSpace(s[k]))
              && (forall k :: j <= k < |s| ==> IsWhiteSpace(s[k]))
    ensures |r| > 0 ==> !IsWhiteSpace(r[0]) && !IsWhiteSpace(r[|r| - 1])
  {
    var a := TrimStart(s);
    var r := TrimEnd(a);
    var i := |s| - |a|;
    assert r == s[i..i + |r|];
    r
  }

  /** `s.split(' ')[0]`: everything before the first space. */
  function FirstToken(s: string): (r: string)
    ensures StartsWith(s, r)
    ensures ' ' !in r
    ensures |r| < |s| ==> s[|r|] == ' '
  {
    if |s| == 0 || s[0] == ' ' then [] else [s[0]] + FirstToken(s[1..])
  }

  /** Ordinal (code point by code point) order on strings; a proper prefix
      comes first. */
  predicate Less(a: string, b: string) {
    if |a| == 0 then |b| > 0
    else if |b| == 0 then false
    else if a[0] != b[0] then a[0] < b[0]
    else Less(a[1..], b[1..])
  }

  lemma {:induction false} LessIrreflexive(a: string)
    ensures !Less(a, a)
  {
    if |a| > 0 {
      LessIrreflexive(a[1..]);
    }
  }

  lemma {:induction false} LessAsymmetric(a: string, b: string)
    requires Less(a, b)
    ensures !Less(b, a)
  {
    if |a| > 0 && |b| > 0 && a[0] == b[0] {
      LessAsymmetric(a[1..], b[1..]);
    }
  }

  lemma {:induction false} LessTransitive(a: string, b: string, c: string)
    requires Less(a, b) && Less(b, c)
    ensures Less(a, c)
  {
    if |a| > 0 && a[0] == b[0] && b[0] == c[0] {
      LessTransitive(a[1..], b[1..], c[1..]);
    }
  }

  lemma {:induction false} LessTotal(a: string, b: string)
    requires a != b
    ensures Less(a, b) || Less(b, a)
  {
    if |a| > 0 && |b| > 0 && a[0] == b[0] {
      assert a == [a[0]] + a[1..] && b == [b[0]] + b[1..];
      LessTotal(a[1..], b[1..]);
    }
  }
}

=== FILE: wrappers.dfy ===
/** The wrappers shared by the model: an optional value and a value-or-error
    result. */
module Wrappers {

  datatype Option<+T> = None | Some(value: T)

  datatype Result<+R, +E> = Ok(value: R) | Err(error: E)
}
